=== FILE: README.md ===
# RAG agent demo: a Dafny model of its text and sequence rules

The service is a small retrieval-augmented chat back end. Its upload handler and batch
ingest script cut documents into paragraph chunks and store them in a vector
collection. Its chat handler logs the user's query and looks up similar chunks. It
assembles a prompt from a persona, the retrieved context and the recent conversation,
calls a language model, and appends a citation footer to the answer. This project
models those rules in Dafny as pure functions over strings and sequences, with two
small loops written as methods.

- **Python text semantics**: `strip`, `split`, `join`, `in`, `lower`, `f"{n}"` and the
  slices `s[:n]` and `s[-n:]` (module `PyText`).
  - `strip` is CPython's forward scan and backward scan over the whitespace set of
    `str.isspace`.
  - A `str` is a sequence of code points, like a Dafny `string`.
- **Documents**: the paragraph chunker (`Chunker`) and the PDF/text readers
  (`Documents`).
  - A file is represented by what each reader sees of it. The page texts and the
    decoded text are inputs.
  - A `.txt` file is read in text mode, so `"\r\n"` and a lone `"\r"` become `"\n"`
    before chunking. The model applies that translation to the decoded text.
- **Upload**: the `/upload` handler from the extension check on (`Upload`).
- **Batch ingest**: the ingest script, with a reference definition of what the
  directory contributes (`Ingest`).
  - A method builds the three lists the way the script's loops do.
  - The corpus is cut into add calls of 100.
- **Vector store**: the store appears only as the `add` calls sent to it (`VectorStore`).
- **Retrieval**: post-processing of query hits into a context string and a source
  list (`Retriever`).
- **Prompt assembly**: persona, system prompt and the four-turn history window
  (`Assembler`).
- **Chat flow**: the chat handler with its message log (`ChatFlow`).
  - The log is the sequence of stored turns in id order.
  - The vector-store query result and the model call enter as inputs.

Some behaviours of the code worth knowing:

- **Error replies.** A failed model call returns `"System Error: ..."` and is not
  stored; only the user turn is.
- **Context cut.** The 2500-character cut is a Python `str` slice, so it counts code
  points.
- **PDF pages.** A PDF page that cannot be extracted is not replaced by empty text. The
  exception ends the upload with an error status, or it ends the ingest run.
- **Unsupported uploads.** An unsupported upload is still written to the documents
  folder before the extension check. That write is outside the model (see below).

## Model

| member | source | states |
|---|---|---|
| PyText.Strip | main.py:119 | `c.strip()` has no whitespace at either end, is empty exactly when the text is all whitespace, and occurs in the text right after its leading whitespace |
| PyText.StripCore | main.py:119 | strip is determined by its meaning: whitespace + stripped core + whitespace strips to exactly that core |
| PyText.StripIdempotent | main.py:119 | stripping a stripped text changes nothing |
| PyText.StripKeepsAbsent | main.py:119 | strip cannot create an occurrence of a substring the text does not have |
| PyText.Split | main.py:119 | `split(sep)` gives at least one piece and no piece contains the separator |
| PyText.JoinSplit | main.py:119 | joining the pieces of a split with the separator gives back the text |
| PyText.SplitJoin | main.py:150 | with a one-character separator that no part contains, splitting a join gives back the parts |
| PyText.JoinContainsParts | main.py:150 | every part of a join occurs in the joined text |
| PyText.Lower | main.py:208 | `lower()` leaves no ASCII capital and keeps the length unless CAPITAL I WITH DOT ABOVE occurs |
| PyText.LowerAt | main.py:208 | away from CAPITAL I WITH DOT ABOVE, lower-casing works index by index |
| PyText.LowerAppend | main.py:208 | the model's lower-casing distributes over concatenation |
| PyText.Decimal | main.py:120 | `f"{i}"` is a non-empty string of digits with no leading zero |
| PyText.DecimalRoundTrip | main.py:120 | `int(f"{n}") == n` |
| PyText.DecimalInjective | ingest.py:73 | different counters print differently |
| PyText.Take | main.py:151 | `s[:n]` is a prefix of length `min(n, len(s))` |
| PyText.Last | main.py:189 | for `n > 0`, `s[-n:]` is the suffix of length `min(n, len(s))` |
| Chunker.KeepNonBlank | main.py:119 | the comprehension keeps at most as many pieces, each non-empty and stripped |
| Chunker.KeepNonBlankNoBreak | main.py:119 | stripping and dropping pieces never creates a blank line |
| Chunker.KeepNonBlankEmpty | main.py:119 | nothing is kept exactly when every piece is whitespace |
| Chunker.ChunkText | ingest.py:69 | every chunk is non-empty, stripped and free of `"\n\n"`; there are no chunks exactly when the text is all whitespace (the same line as main.py:119) |
| Chunker.SplitJoinParagraphs | main.py:119 | splitting at blank lines undoes joining with blank lines for paragraphs without blank lines or trailing newlines |
| Chunker.ChunkParagraphs | main.py:119 | a text made of such paragraphs chunks into exactly its non-blank paragraphs, stripped, in order |
| Chunker.ChunkTextStep | main.py:119 | chunking proceeds piece by piece from the first blank line |
| Chunker.ChunksInDocumentOrder | main.py:119 | every chunk occurs in the text at its start index, and each ends at least a blank line before the next begins |
| Documents.PdfText | main.py:75-80 | `read_pdf` has length equal to the page lengths plus one newline per page (the same function as ingest.py:27-32) |
| Documents.PdfTextLayout | ingest.py:27-32 | page `k` sits in the text after the earlier pages and their newlines, followed by a newline |
| Documents.UniversalNewlines | main.py:116 | the text-mode read leaves no carriage return and never lengthens the text |
| Documents.UniversalNewlinesAppend | main.py:116 | reading a text is reading its parts one after the other, unless the cut falls inside a `"\r\n"` |
| Documents.LineEndsRead | main.py:116 | `"\r\n"` and a lone `"\r"` are each read as one `"\n"` |
| Documents.OtherCharRead | main.py:116 | every character other than `"\r"` is read as itself |
| Documents.LoneCarriageReturn | ingest.py:34-36 | a `"\r"` not followed by `"\n"` becomes a newline between the reads of the text around it |
| Documents.CarriageReturnLineFeed | ingest.py:34-36 | a `"\r\n"` becomes one newline between the reads of the text around it |
| Documents.MacParagraphBreak | main.py:116 | `"a\r\rb"` is read as `"a\n\nb"`, a paragraph break |
| Documents.UniversalNewlinesUnchanged | ingest.py:34-36 | the text-mode read changes a decoded text exactly when it holds a carriage return |
| Documents.WindowsParagraphBreak | main.py:116 | `"a\r\n\r\nb"` is read as `"a\n\nb"` |
| Documents.TwoLinesChunk | main.py:119 | two non-empty stripped lines joined by a blank line chunk into exactly those two lines |
| Documents.WindowsBlankLine | main.py:116 | two texts without carriage returns around `"\r\n\r\n"` are read with `"\n\n"` between them |
| Documents.WindowsFileChunks | main.py:116-119 | two non-empty stripped one-line paragraphs separated by `"\r\n\r\n"` are read and chunked into exactly those two paragraphs |
| Documents.WindowsExampleChunks | main.py:116-119 | for example `"a\r\n\r\nb"` chunks into `["a", "b"]` |
| Documents.WindowsTextFileChunks | ingest.py:60-69 | a `.txt` file whose decoded text is two such paragraphs with Windows line ends is read as text, not as PDF, and chunks into the two paragraphs |
| Documents.ReadDocument | main.py:113-117 | a name is read exactly when it ends in `.pdf` or `.txt`; a `.pdf` name gives `read_pdf` of its pages and a `.txt` name gives the text-mode read of its text (the `.pdf` test comes first); either reader's exception becomes that failure |
| Documents.ReadFailsOnlyInReader | ingest.py:60-66 | reading fails exactly when the reader the extension picks raises |
| Documents.ReadPdfHoldsEveryPage | ingest.py:27-32 | every page of a PDF that was read occurs in the text handed to the chunker |
| Upload.ChunkIdInjective | main.py:120 | `f"{filename}_{i}"` determines both the file name and the index |
| Upload.FileBatch | main.py:119-121 | ids, documents and metadatas line up; the documents are the chunks; the ids are `filename_0..` and pairwise distinct; every source is the file name |
| Upload.UploadFile | main.py:113-126 | unsupported type and reader exceptions give an error, no chunks give a warning, and in these cases nothing is added; otherwise success with the add call of the file's chunks |
| Ingest.Contribute | ingest.py:55-69 | an entry is skipped exactly when it is not a regular file or has another extension; it fails exactly when it is a regular file whose reader raises, with that message; otherwise it contributes exactly the chunks of the text read |
| Ingest.Collect | ingest.py:52-76 | the reference contribution of the whole listing consists of chunks only |
| Ingest.CollectAppend | ingest.py:52-76 | collecting two parts of the listing and combining them equals collecting it at once |
| Ingest.SkippedEntryContributesNothing | ingest.py:55-66 | removing a skipped entry anywhere from the listing changes nothing |
| Ingest.FileChunksContiguous | ingest.py:71-76 | one file's chunks are contiguous, in their order, tagged with its name, right after what the earlier entries gave |
| Ingest.DocIdsDistinct | ingest.py:73 | `doc_k` ids are pairwise distinct and never equal an upload id of a `.pdf`/`.txt` file |
| Ingest.AppendFile | ingest.py:71-76 | the inner loop appends the file's tagged chunks with the next `doc_k` ids and advances the counter by their number |
| Ingest.AddEntry | ingest.py:52-76 | one pass over entry `i` stops with the collection's error exactly when that entry's reader raised, and otherwise extends the lists to those of the collection through entry `i` |
| Ingest.BuildCorpus | ingest.py:47-76 | the outer loop fails exactly when the reference collection does, with its error; otherwise it builds the collection's chunks, `doc_0..doc_{n-1}` and sources |
| Ingest.BatchesFrom | ingest.py:83-92 | the loop from `i` on, one call over `[i, min(i+100, n))` and then on from `i + 100`, issues `ceil((n-i)/100)` calls, the `k`-th over `[i+100k, min(i+100k+100, n))` |
| Ingest.Batches | ingest.py:82-92 | the loop from 0 issues `ceil(n/100)` add calls, the `k`-th over `[100k, min(100k+100, n))` |
| Ingest.BatchShapes | ingest.py:82-86 | every batch is aligned and non-empty with at most 100 items, all but the last exactly 100 |
| Ingest.BatchesReassemble | ingest.py:83-92 | the batches concatenated in order give back the ids, the chunks and the metadatas |
| Ingest.Ingest | ingest.py:79-95 | the run aborts exactly on a read error, reports no text exactly when nothing was collected, and otherwise adds the non-empty corpus in its batches |
| Retriever.Retrieve | main.py:147-156 | the context is at most 2500 code points and a prefix of the newline-joined hits, as long as possible; no hits give empty context and no sources; one source per hit, in order |
| Retriever.ContextSplitsIntoHits | main.py:150-151 | when the join fits and no hit has a newline, the context splits back into exactly the hit texts |
| Retriever.ShortContextHoldsEveryHit | main.py:150-151 | when the join fits, every hit text occurs in the context |
| Retriever.Distinct | main.py:158 | deduplication keeps each element once and no other |
| Retriever.DistinctKeepsRepeatFree | main.py:158 | a list without repeats is its own deduplication |
| Retriever.DistinctIdempotent | main.py:158 | deduplicating twice changes nothing |
| Retriever.CitedSourcesAreHitSources | main.py:152-158 | the cited sources have no repeats, are exactly the sources of the hits, and are empty exactly when there are no hits |
| Assembler.Persona | main.py:162-167 | the Coder text exactly for `"Coder"`, the Analyst text exactly for `"Analyst"`, the default otherwise (case-sensitive) |
| Assembler.SystemPrompt | main.py:171-183 | the prompt has the persona after the opening line break and the context before the closing one, and contains both |
| Assembler.PromptContextRoundTrip | main.py:171-183 | the context can be read back out of the prompt whole, and only the prompt built from it gives it back |
| Assembler.CutTurn | main.py:191 | a turn keeps its role and its content is cut to a prefix of at most 500 code points |
| Assembler.Window | main.py:188-191 | the last `min(4, n)` turns in chronological order, each with its role and its content cut to 500 |
| Assembler.AssembleMessages | main.py:185-193 | `2 + min(4, n)` messages: the system prompt first, the window in between, the user query last |
| Assembler.RequestEndsWithQuery | main.py:188-193 | when the newest stored turn is the query, it appears cut as the last history turn and whole as the final message |
| Assembler.WindowKeepsShortHistory | main.py:189-191 | up to four short turns reach the model unchanged |
| Assembler.WindowSlides | main.py:189-191 | one more stored turn enters the window at the end and, once four are shown, the oldest leaves |
| ChatFlow.SaveMessage | main.py:59-64 | saving adds one turn at the end and leaves earlier turns as they were |
| ChatFlow.ClearHistory | main.py:97-104 | the history is empty afterwards |
| ChatFlow.HistoryAfterClear | main.py:66-72 | after a clear, the history is exactly the turns saved since, oldest first |
| ChatFlow.IsGreeting | main.py:207-208 | the greeting test: some keyword occurs in the lower-cased query and the query has fewer than 20 characters (its meaning is stated by the greeting lemmas below) |
| ChatFlow.CitationFooter | main.py:211 | the footer text: the sources label followed by the sources joined with `", "` (see `FooterNamesEverySource`) |
| ChatFlow.ChatMessages | main.py:145-193 | the request: the persona's system prompt with the retrieved context, then the history read after the query was saved (see `QueryReachesModelTwice`) |
| ChatFlow.WithCitations | main.py:207-211 | the footer is added exactly when there are sources and the query is not a greeting; the model's text is kept in front |
| ChatFlow.FooterNamesEverySource | main.py:211 | the footer names every cited source |
| ChatFlow.Respond | main.py:203-218 | on failure the reply is `"System Error: " + message` and only the user turn is stored; on success the reply is the model's text, followed by the citation footer of the cited sources exactly when there are sources and the query is not a greeting, and it is stored after the user turn |
| ChatFlow.Chat | main.py:136-218 | the whole handler: the request built from the log, persona and hits goes to the model, then as for `Respond` |
| ChatFlow.QueryReachesModelTwice | main.py:142-193 | the request starts with the system prompt holding persona and context, ends with the query, and, since the query is saved first, also carries it (cut) as the last history turn |
| ChatFlow.ChatOnlyAppends | main.py:142-213 | a chat request keeps every earlier turn, stores the query next and adds at most one more turn |
| ChatFlow.ShortGreetings | main.py:207-208 | `"Hi"` and `"HELLO"` are greetings |
| ChatFlow.KeywordInsideWordMakesGreeting | main.py:207-208 | any query under 20 characters with `"hi"` inside a word is a greeting and gets no footer |
| ChatFlow.ShortQuestionMistakenForGreeting | main.py:208-210 | `"Is this free?"` is taken for a greeting, so its answer cites nothing |
| ChatFlow.LongQuestionCitesSources | main.py:208-211 | every query of 20 characters or more is not a greeting, so the footer is appended whenever there are sources |
| ChatFlow.HelloQuestionCitesSources | main.py:208-211 | even a long question starting with "Hello" gets the footer |

## Left out

- The FastAPI app, CORS, request models and the upload's write to the documents folder (main.py:106-111): transport and file I/O.
- Concurrent requests: the chat handler is modelled one request at a time. The server runs `chat_endpoint` in a thread pool with no lock around main.py:142-188, so two chats, or a `clear_history` during a chat, can interleave their log writes. Then a request's last history turn need not be its own query. `QueryReachesModelTwice`, `RequestEndsWithQuery` and `ChatOnlyAppends` hold only for requests that do not overlap.
- SQLite connections and the table schema: only the log's meaning is modelled, an append-only sequence in id order with clear.
- `get_documents`, `delete_document` and `get_history`: thin wrappers around Chroma or the log. `get_history` is `History`.
- Chroma itself: embedding, similarity ranking, persistence and collection reset. Query hits are an input list, and `add` is represented by the call made.
- The Groq completion call: it is an input, a reply string or the message of the exception raised. A reply whose content is `None` is outside the model, because the generation result is a string. In the code such a `None` is saved when no footer is added, and each of the next three requests then raises at `msg['content'][:500]`, outside the `try`, while that turn is among the last four (unless the history is cleared first).
- Text extraction by pypdf and UTF-8 decoding: the page texts and the decoded text are inputs, each possibly the message of an exception. The newline translation of the text-mode read is modelled on top of the decoded text.
- `print` statements and console messages.
- Exceptions raised by `collection.add` (caught by the upload handler) and by `collection.query` (not caught): both are library failures.
- Ingest.Collect: its own contract states only that everything collected is a chunk. What it collects is pinned down by CollectAppend, SkippedEntryContributesNothing, FileChunksContiguous and the loop in BuildCorpus.
- Retriever.Retrieve: does not require at most 3 hits (`n_results=3`), because the bound is the store's promise, not the handler's.
- Retriever.Distinct: `list(set(...))` has no specified order; the model keeps first occurrences in order, one of the orders Python may produce.
- PyText.Lower: keeps non-ASCII code points other than KELVIN SIGN and CAPITAL I WITH DOT ABOVE as they are. Python lower-cases them to other non-ASCII code points, which no ASCII keyword can match either way.

=== FILE: assembler.dfy ===
/** The request the chat handler sends to the language model
    (main.py:160-193): a system message built from the persona the client
    selected and the retrieved context, the last four stored turns with their
    text cut to 500 characters, and the user's query. */
module Assembler {
  import opened Wrappers
  import opened PyText

  /** The `role` field of a chat message. */
  datatype Role = System | User | Assistant

  /** `{"role": ..., "content": ...}` */
  datatype Message = Message(role: Role, content: string)

  const CoderPersona := "You are an Expert Software Engineer. You write clean, efficient code and explain technical concepts clearly."
  const AnalystPersona := "You are a Data Analyst. You summarize complex information into concise bullet points."
  const DefaultPersona := "You are a friendly and professional AI Assistant."

  /** main.py:162-167: exact, case-sensitive comparison of the selected role. */
  function Persona(selectedRole: string): (p: string)
    ensures p == CoderPersona <==> selectedRole == "Coder"
    ensures p == AnalystPersona <==> selectedRole == "Analyst"
    ensures p == DefaultPersona <==> selectedRole != "Coder" && selectedRole != "Analyst"
  {
    if selectedRole == "Coder" then CoderPersona
    else if selectedRole == "Analyst" then AnalystPersona
    else DefaultPersona
  }

  /** The fixed text of the f-string at main.py:171-183 before the persona,
      between persona and context, and after the context. */
  const PromptHead := "\n    "
  const PromptInstructions :=
    "\n    \n    You have access to the user's uploaded documents (Context provided below).\n    \n    STRICT INSTRUCTIONS:\n    1. **Greetings:** If the user says \"Hello\", \"Hi\", \"How are you\", or general chit-chat, DO NOT look at the Context. Just reply warmly and naturally (e.g., \"Hello! How can I help you today?\").\n    2. **Document Questions:** If the user asks a specific question about the uploaded files, USE the Context to answer accurately.\n    3. **Context Awareness:** Do not say \"According to the context\" unless you are actually answering a question about the documents.\n\n    Context from uploaded files:\n    "
  const PromptTail := "\n    "

  /** Everything in the system prompt before the context. */
  function PromptOpening(persona: string): string
  {
    PromptHead + persona + PromptInstructions
  }

  /** The system prompt: the persona right after the opening line break and
      indentation, the context right before the closing one. */
  function SystemPrompt(persona: string, context: string): (p: string)
    ensures |p| == |PromptHead| + |persona| + |PromptInstructions| + |context| + |PromptTail|
    ensures OccursAt(p, persona, |PromptHead|)
    ensures OccursAt(p, context, |p| - |PromptTail| - |context|)
    ensures Contains(p, persona) && Contains(p, context)
  {
    FiveParts(PromptHead, persona, PromptInstructions, context, PromptTail);
    PromptOpening(persona) + context + PromptTail
  }

  /** Where the second and the fourth of five concatenated texts sit. */
  lemma FiveParts(a: string, b: string, c: string, d: string, e: string)
    ensures OccursAt(a + b + c + d + e, b, |a|)
    ensures OccursAt(a + b + c + d + e, d, |a| + |b| + |c|)
  {
    var s := a + b + c + d + e;
    assert s[|a|..|a| + |b|] == b;
    assert s[|a| + |b| + |c|..|a| + |b| + |c| + |d|] == d;
  }

  /** The text between `opening` and `closing`, if `s` has both. */
  function Between(s: string, opening: string, closing: string): (middle: Option<string>)
    ensures middle.Some? ==> |opening| + |middle.value| + |closing| == |s|
  {
    if |opening| + |closing| <= |s|
       && s[..|opening|] == opening
       && s[|s| - |closing|..] == closing
    then Some(s[|opening|..|s| - |closing|])
    else None
  }

  /** `Between` takes apart exactly what concatenation puts together. */
  lemma BetweenRoundTrip(opening: string, middle: string, closing: string, s: string)
    ensures Between(opening + middle + closing, opening, closing) == Some(middle)
    ensures Between(s, opening, closing) == Some(middle) ==> s == opening + middle + closing
  {
    var t := opening + middle + closing;
    assert t[..|opening|] == opening;
    assert t[|t| - |closing|..] == closing;
    assert t[|opening|..|t| - |closing|] == middle;
    if Between(s, opening, closing) == Some(middle) {
      assert s == s[..|opening|] + s[|opening|..|s| - |closing|] + s[|s| - |closing|..];
    }
  }

  /** Reads the context back out of a system prompt built for `persona`. */
  function PromptContext(prompt: string, persona: string): (context: Option<string>)
    ensures context.Some? ==> |PromptOpening(persona)| + |context.value| + |PromptTail| == |prompt|
  {
    Between(prompt, PromptOpening(persona), PromptTail)
  }

  /** The system prompt gives back the context it was built from, and a
      prompt that gives back a context is the one built from it: the context
      reaches the model whole and unaltered. */
  lemma PromptContextRoundTrip(persona: string, context: string, prompt: string)
    ensures PromptContext(SystemPrompt(persona, context), persona) == Some(context)
    ensures PromptContext(prompt, persona) == Some(context) ==> prompt == SystemPrompt(persona, context)
  {
    BetweenRoundTrip(PromptOpening(persona), context, PromptTail, prompt);
  }

  /** `full_history[-4:]` */
  const HistoryWindow := 4

  /** `msg['content'][:500]` */
  const TurnLimit := 500

  function CutTurn(m: Message): (c: Message)
    ensures c.role == m.role && c.content <= m.content
    ensures |c.content| == Min(TurnLimit, |m.content|)
  {
    Message(m.role, Take(m.content, TurnLimit))
  }

  /** main.py:188-191: the last four stored turns in their order, each cut. */
  function Window(history: seq<Message>): (w: seq<Message>)
    ensures |w| == Min(HistoryWindow, |history|)
    ensures forall k :: 0 <= k < |w| ==>
              var m := history[|history| - |w| + k];
              && w[k].role == m.role
              && w[k].content <= m.content
              && |w[k].content| == Min(TurnLimit, |m.content|)
  {
    CutAll(Last(history, HistoryWindow))
  }

  function CutAll(ms: seq<Message>): seq<Message>
  {
    seq(|ms|, k requires 0 <= k < |ms| => CutTurn(ms[k]))
  }

  lemma LastSlides<T>(xs: seq<T>, x: T, n: nat)
    requires n > 0
    ensures Last(xs + [x], n) == (if |xs| < n then xs else Last(xs, n)[1..]) + [x]
  {
  }

  /** main.py:185-193: system prompt first, the recent turns, the query last. */
  function AssembleMessages(prompt: string, history: seq<Message>, query: string): (msgs: seq<Message>)
    ensures |msgs| == 2 + Min(HistoryWindow, |history|)
    ensures msgs[0] == Message(System, prompt)
    ensures msgs[|msgs| - 1] == Message(User, query)
    ensures msgs[1..|msgs| - 1] == Window(history)
  {
    var msgs := [Message(System, prompt)] + Window(history) + [Message(User, query)];
    assert msgs[1..|msgs| - 1] == Window(history);
    msgs
  }

  /** When the newest stored turn is the query itself, the request ends
      with it twice: cut, as the last history turn, and whole, as the user
      message. */
  lemma RequestEndsWithQuery(prompt: string, history: seq<Message>, query: string)
    ensures var msgs := AssembleMessages(prompt, history + [Message(User, query)], query);
            && |msgs| == 2 + Min(HistoryWindow, |history| + 1)
            && msgs[0] == Message(System, prompt)
            && msgs[|msgs| - 1] == Message(User, query)
            && msgs[|msgs| - 2] == CutTurn(Message(User, query))
  {
    var turn := Message(User, query);
    var h := history + [turn];
    var msgs := AssembleMessages(prompt, h, query);
    var w := Window(h);
    assert msgs[1..|msgs| - 1] == w;
    assert msgs[|msgs| - 2] == w[|w| - 1];
    assert Last(h, HistoryWindow)[|w| - 1] == turn;
  }

  /** A short conversation of short turns reaches the model unchanged. */
  lemma WindowKeepsShortHistory(history: seq<Message>)
    requires |history| <= HistoryWindow
    requires forall k :: 0 <= k < |history| ==> |history[k].content| <= TurnLimit
    ensures Window(history) == history
  {
    assert Last(history, HistoryWindow) == history;
    forall k | 0 <= k < |history|
      ensures CutTurn(history[k]) == history[k]
    {
      assert Take(history[k].content, TurnLimit) == history[k].content;
    }
  }

  /** Appending a turn slides the window: the new turn (cut) enters at the
      end and, once four turns are shown, the oldest one leaves. */
  lemma WindowSlides(history: seq<Message>, m: Message)
    ensures Window(history + [m]) ==
              (if |history| < HistoryWindow then Window(history) else Window(history)[1..]) + [CutTurn(m)]
  {
    var recent := Last(history, HistoryWindow);
    LastSlides(history, m, HistoryWindow);
    var kept := if |history| < HistoryWindow then recent else recent[1..];
    assert CutAll(kept + [m]) == CutAll(kept) + [CutTurn(m)];
    if |history| >= HistoryWindow {
      assert CutAll(recent[1..]) == CutAll(recent)[1..];
    }
  }
}

=== FILE: chatflow.dfy ===
/** The chat handler `chat_endpoint` (main.py:136-218) with the message log
    it reads and writes (main.py:59-72, 97-104). The log is the table of
    stored turns seen in id order; the similarity query's result and the
    language model's answer enter as inputs. */
module ChatFlow {
  import opened Wrappers
  import opened PyText
  import opened VectorStore
  import opened Retriever
  import opened Assembler

  // ---------------------------------------------------------------------
  // The message log

  /** The stored turns, oldest first (`ORDER BY id ASC` over an
      auto-incremented id is insertion order). */
  datatype ChatLog = ChatLog(turns: seq<Message>)

  /** `get_chat_history()` */
  function History(log: ChatLog): seq<Message>
  {
    log.turns
  }

  /** `save_message(role, content)`: one more turn at the end, nothing
      else changes. */
  function SaveMessage(log: ChatLog, m: Message): (log': ChatLog)
    ensures |History(log')| == |History(log)| + 1
    ensures History(log) <= History(log')
    ensures History(log')[|History(log)|] == m
  {
    ChatLog(log.turns + [m])
  }

  /** `clear_history()`: the log is empty afterwards. */
  function ClearHistory(log: ChatLog): (log': ChatLog)
    ensures History(log') == []
  {
    ChatLog([])
  }

  /** After clearing, the history is exactly what was saved since. */
  lemma {:induction false} HistoryAfterClear(log: ChatLog, saved: seq<Message>)
    ensures History(SaveAll(ClearHistory(log), saved)) == saved
    decreases |saved|
  {
    if saved != [] {
      var init := saved[..|saved| - 1];
      HistoryAfterClear(log, init);
      assert saved == init + [saved[|saved| - 1]];
    }
  }

  /** Two saves in a row append both turns in order. */
  lemma SaveTwice(log: ChatLog, first: Message, second: Message)
    ensures History(SaveMessage(SaveMessage(log, first), second)) == History(log) + [first, second]
  {
    assert History(log) + [first] + [second] == History(log) + [first, second];
  }

  /** Saving several turns in order. */
  function SaveAll(log: ChatLog, ms: seq<Message>): (log': ChatLog)
    ensures |History(log')| == |History(log)| + |ms|
    ensures History(log) <= History(log')
  {
    if ms == [] then log else SaveMessage(SaveAll(log, ms[..|ms| - 1]), ms[|ms| - 1])
  }

  // ---------------------------------------------------------------------
  // Greetings and the citation footer

  const GreetingKeywords: seq<string> :=
    ["hello", "hi", "hey", "good morning", "good evening", "thanks", "thank you"]

  /** `len(user_query) < 20` */
  const GreetingMaxLength := 20

  /** main.py:207-208: some keyword occurs in the lower-cased query, and the
      query is shorter than 20 characters. */
  predicate IsGreeting(query: string)
  {
    && (exists k :: 0 <= k < |GreetingKeywords| && Contains(Lower(query), GreetingKeywords[k]))
    && |query| < GreetingMaxLength
  }

  const SourcesLabel := "\n\n**\U{1F4DA} Sources:** "

  /** `f"\n\n**📚 Sources:** {', '.join(unique_sources)}"` */
  function CitationFooter(sources: seq<string>): string
  {
    SourcesLabel + Join(sources, ", ")
  }

  /** main.py:210-211: the footer is added exactly when there is something
      to cite and the query is not a greeting; the model's text is kept as
      it is in front. */
  function WithCitations(reply: string, query: string, sources: seq<string>): (r: string)
    ensures reply <= r
    ensures r != reply <==> sources != [] && !IsGreeting(query)
    ensures r != reply ==> r[|reply|..] == CitationFooter(sources)
  {
    if sources != [] && !IsGreeting(query) then reply + CitationFooter(sources) else reply
  }

  /** The footer names every cited source. */
  lemma FooterNamesEverySource(sources: seq<string>, k: nat)
    requires k < |sources|
    ensures Contains(CitationFooter(sources), sources[k])
  {
    var joined := Join(sources, ", ");
    var footer := CitationFooter(sources);
    JoinContainsParts(sources, ", ", k);
    var i: nat :| i <= |joined| && OccursAt(joined, sources[k], i);
    assert footer[|SourcesLabel|..|footer|] == joined;
    OccursInSlice(footer, |SourcesLabel|, |footer|, sources[k], i);
  }

  // ---------------------------------------------------------------------
  // One chat request

  /** The reply returned to the client and the log afterwards. */
  datatype ChatOutcome = ChatOutcome(reply: string, log: ChatLog)

  /** The chat completion call: the reply text, or the message of the
      exception it raised. */
  type Generator = seq<Message> -> Result<string, string>

  const ErrorPrefix := "System Error: "

  /** The user turn the handler saves first (main.py:142). */
  function UserTurn(query: string): Message
  {
    Message(User, query)
  }

  /** The messages sent to the model (main.py:145-193). The history is read
      after the user turn was saved. */
  function ChatMessages(log: ChatLog, query: string, selectedRole: string, hits: seq<Hit>): seq<Message>
  {
    var retrieval := Retrieve(hits);
    var prompt := SystemPrompt(Persona(selectedRole), retrieval.context);
    AssembleMessages(prompt, History(SaveMessage(log, UserTurn(query))), query)
  }

  /** The sources a successful reply cites (main.py:152-158). */
  function CitedSources(hits: seq<Hit>): seq<string>
  {
    Distinct(Retrieve(hits).sources)
  }

  /** What the handler does with the model's answer: return it with its
      footer and save it, or return the error text without saving anything
      more. The user turn is saved in either case. */
  function Respond(log: ChatLog, query: string, hits: seq<Hit>, answer: Result<string, string>): (out: ChatOutcome)
    ensures answer.Failure? ==>
              && out.reply == ErrorPrefix + answer.error
              && History(out.log) == History(log) + [UserTurn(query)]
    ensures answer.Success? ==>
              && answer.value <= out.reply
              && (out.reply != answer.value <==> CitedSources(hits) != [] && !IsGreeting(query))
              && (out.reply != answer.value ==> out.reply == answer.value + CitationFooter(CitedSources(hits)))
              && History(out.log) == History(log) + [UserTurn(query), Message(Assistant, out.reply)]
  {
    var saved := SaveMessage(log, UserTurn(query));
    match answer
    case Failure(e) => ChatOutcome(ErrorPrefix + e, saved)
    case Success(text) =>
      var reply := WithCitations(text, query, CitedSources(hits));
      SaveTwice(log, UserTurn(query), Message(Assistant, reply));
      ChatOutcome(reply, SaveMessage(saved, Message(Assistant, reply)))
  }

  /** `chat_endpoint`: save the user turn, build the request, and either
      return the model's reply with its footer and save it, or return the
      error text without saving anything more. */
  function Chat(log: ChatLog, query: string, selectedRole: string, hits: seq<Hit>, generate: Generator): (out: ChatOutcome)
    ensures var answer := generate(ChatMessages(log, query, selectedRole, hits));
            && (answer.Failure? ==>
                  && out.reply == ErrorPrefix + answer.error
                  && History(out.log) == History(log) + [UserTurn(query)])
            && (answer.Success? ==>
                  && answer.value <= out.reply
                  && (out.reply != answer.value <==> CitedSources(hits) != [] && !IsGreeting(query))
                  && (out.reply != answer.value ==> out.reply == answer.value + CitationFooter(CitedSources(hits)))
                  && History(out.log) == History(log) + [UserTurn(query), Message(Assistant, out.reply)])
  {
    Respond(log, query, hits, generate(ChatMessages(log, query, selectedRole, hits)))
  }

  /** The request has the persona's prompt with the retrieved context first
      and the query last, and, because the query was saved before the
      history was read, the query (cut to 500 characters) is also the last
      history turn in between. */
  lemma QueryReachesModelTwice(log: ChatLog, query: string, selectedRole: string, hits: seq<Hit>)
    ensures var msgs := ChatMessages(log, query, selectedRole, hits);
            && |msgs| == 2 + Min(HistoryWindow, |History(log)| + 1)
            && msgs[0].role == System
            && Contains(msgs[0].content, Persona(selectedRole))
            && Contains(msgs[0].content, Retrieve(hits).context)
            && msgs[|msgs| - 1] == UserTurn(query)
            && msgs[|msgs| - 2] == CutTurn(UserTurn(query))
  {
    var prompt := SystemPrompt(Persona(selectedRole), Retrieve(hits).context);
    RequestEndsWithQuery(prompt, History(log), query);
  }

  /** A chat request never removes or changes earlier turns. */
  lemma ChatOnlyAppends(log: ChatLog, query: string, selectedRole: string, hits: seq<Hit>, generate: Generator)
    ensures var out := Chat(log, query, selectedRole, hits, generate);
            && History(log) <= History(out.log)
            && |History(log)| + 1 <= |History(out.log)| <= |History(log)| + 2
            && History(out.log)[|History(log)|] == UserTurn(query)
  {
  }

  // ---------------------------------------------------------------------
  // Greeting examples

  /** "Hi" is a greeting; lower-casing makes "HELLO" one too. */
  lemma ShortGreetings()
    ensures IsGreeting("Hi")
    ensures IsGreeting("HELLO")
  {
    LowerAt("Hi", 0);
    LowerAt("Hi", 1);
    assert Lower("Hi") == "hi";
    assert OccursAt(Lower("Hi"), GreetingKeywords[1], 0);
    var loud := "HELLO";
    forall k | 0 <= k < 5
      ensures Lower(loud)[k] == "hello"[k]
    {
      LowerAt(loud, k);
    }
    assert Lower(loud) == "hello";
    assert OccursAt(Lower(loud), GreetingKeywords[0], 0);
  }

  /** A lower-case word inside a text is still there after lower-casing. */
  lemma LowerKeepsWord(before: string, w: string, after: string)
    requires Lower(w) == w
    ensures Contains(Lower(before + w + after), w)
  {
    LowerAppend(before + w, after);
    LowerAppend(before, w);
    var lower := Lower(before) + w + Lower(after);
    assert lower[|Lower(before)|..|Lower(before)| + |w|] == w;
    assert OccursAt(lower, w, |Lower(before)|);
  }

  /** Keywords match anywhere in the text, so any short query with "hi"
      inside a word (as in "this") counts as a greeting and gets no footer. */
  lemma KeywordInsideWordMakesGreeting(before: string, after: string, reply: string, sources: seq<string>)
    requires |before| + 2 + |after| < GreetingMaxLength
    ensures IsGreeting(before + "hi" + after)
    ensures WithCitations(reply, before + "hi" + after, sources) == reply
  {
    var hi := GreetingKeywords[1];
    LowerAt(hi, 0);
    LowerAt(hi, 1);
    assert Lower(hi) == hi;
    LowerKeepsWord(before, hi, after);
  }

  /** For example, "Is this free?" is taken for a greeting. */
  lemma ShortQuestionMistakenForGreeting(reply: string, sources: seq<string>)
    ensures IsGreeting("Is this free?")
    ensures WithCitations(reply, "Is this free?", sources) == reply
  {
    assert "Is this free?" == "Is t" + "hi" + "s free?";
    KeywordInsideWordMakesGreeting("Is t", "s free?", reply, sources);
  }

  /** A question of 20 characters or more is never a greeting, so a reply
      drawing on documents always names them. */
  lemma LongQuestionCitesSources(reply: string, query: string, sources: seq<string>)
    requires |query| >= GreetingMaxLength && sources != []
    ensures !IsGreeting(query)
    ensures WithCitations(reply, query, sources) == reply + CitationFooter(sources)
  {
  }

  /** Even one that starts with "Hello". */
  lemma HelloQuestionCitesSources(reply: string, sources: seq<string>)
    requires sources != []
    ensures WithCitations(reply, "Hello, what does the manual say about refunds?", sources)
            == reply + CitationFooter(sources)
  {
    LongQuestionCitesSources(reply, "Hello, what does the manual say about refunds?", sources);
  }
}

=== FILE: chunker.dfy ===
/** Paragraph chunking, identical in the upload handler (main.py) and the
    batch ingest script (ingest.py): split the text at every blank line
    `"\n\n"`, strip each piece and drop the pieces that strip to nothing. */
module Chunker {
  import opened Wrappers
  import opened PyText

  const ParagraphBreak := "\n\n"

  /** What every chunk looks like: non-empty, already stripped, and without
      a paragraph break inside. */
  predicate IsChunk(c: string)
  {
    c != [] && IsStripped(c) && !Contains(c, ParagraphBreak)
  }

  /** The comprehension `[c.strip() for c in pieces if c.strip()]`. */
  function KeepNonBlank(pieces: seq<string>): (chunks: seq<string>)
    ensures |chunks| <= |pieces|
    ensures forall k :: 0 <= k < |chunks| ==> chunks[k] != [] && IsStripped(chunks[k])
  {
    if pieces == [] then []
    else
      var c := Strip(pieces[0]);
      var rest := KeepNonBlank(pieces[1..]);
      var head := if c == [] then [] else [c];
      assert forall k :: 0 <= k < |rest| ==> (head + rest)[|head| + k] == rest[k];
      head + rest
  }

  /** Stripping and dropping never create a paragraph break. */
  lemma {:induction false} KeepNonBlankNoBreak(pieces: seq<string>)
    requires forall j :: 0 <= j < |pieces| ==> !Contains(pieces[j], ParagraphBreak)
    ensures forall k :: 0 <= k < |KeepNonBlank(pieces)| ==> !Contains(KeepNonBlank(pieces)[k], ParagraphBreak)
  {
    if pieces != [] {
      var c := Strip(pieces[0]);
      var head := if c == [] then [] else [c];
      var rest := KeepNonBlank(pieces[1..]);
      assert forall j :: 0 <= j < |pieces| - 1 ==> pieces[1..][j] == pieces[j + 1];
      KeepNonBlankNoBreak(pieces[1..]);
      StripKeepsAbsent(pieces[0], ParagraphBreak);
      assert KeepNonBlank(pieces) == head + rest;
      assert forall k :: 0 <= k < |rest| ==> (head + rest)[|head| + k] == rest[k];
    }
  }

  lemma {:induction false} KeepNonBlankAllBlank(pieces: seq<string>)
    requires forall j :: 0 <= j < |pieces| ==> AllSpace(pieces[j])
    ensures KeepNonBlank(pieces) == []
  {
    if pieces != [] {
      var tail := pieces[1..];
      assert forall j :: 0 <= j < |tail| ==> tail[j] == pieces[j + 1];
      KeepNonBlankAllBlank(tail);
      assert AllSpace(pieces[0]);
    }
  }

  lemma {:induction false} KeepNonBlankFindsText(pieces: seq<string>, j: nat)
    requires j < |pieces| && !AllSpace(pieces[j])
    ensures KeepNonBlank(pieces) != []
  {
    var c := Strip(pieces[0]);
    var rest := KeepNonBlank(pieces[1..]);
    assert KeepNonBlank(pieces) == (if c == [] then [] else [c]) + rest;
    if j > 0 {
      assert pieces[1..][j - 1] == pieces[j];
      KeepNonBlankFindsText(pieces[1..], j - 1);
    }
  }

  /** Nothing is kept exactly when every piece is whitespace. */
  lemma KeepNonBlankEmpty(pieces: seq<string>)
    ensures KeepNonBlank(pieces) == [] <==> forall j :: 0 <= j < |pieces| ==> AllSpace(pieces[j])
  {
    if forall j :: 0 <= j < |pieces| ==> AllSpace(pieces[j]) {
      KeepNonBlankAllBlank(pieces);
    } else {
      var j :| 0 <= j < |pieces| && !AllSpace(pieces[j]);
      KeepNonBlankFindsText(pieces, j);
    }
  }

  /** Chunk a document's text (main.py:119, ingest.py:69). */
  function ChunkText(content: string): (chunks: seq<string>)
    ensures forall k :: 0 <= k < |chunks| ==> IsChunk(chunks[k])
    ensures chunks == [] <==> AllSpace(content)
  {
    var pieces := Split(content, ParagraphBreak);
    JoinSplit(content, ParagraphBreak);
    BlankJoin(pieces);
    KeepNonBlankNoBreak(pieces);
    KeepNonBlankEmpty(pieces);
    KeepNonBlank(pieces)
  }

  /** Text joined at blank lines is whitespace exactly when every piece is. */
  lemma {:induction false} BlankJoin(pieces: seq<string>)
    ensures AllSpace(Join(pieces, ParagraphBreak)) <==>
            forall j :: 0 <= j < |pieces| ==> AllSpace(pieces[j])
    decreases |pieces|
  {
    if |pieces| > 1 {
      var rest := Join(pieces[1..], ParagraphBreak);
      BlankJoin(pieces[1..]);
      var s := Join(pieces, ParagraphBreak);
      assert s == pieces[0] + ParagraphBreak + rest;
      assert s[..|pieces[0]|] == pieces[0];
      assert s[|pieces[0]| + 2..] == rest;
      assert forall j :: 1 <= j < |pieces| ==> pieces[j] == pieces[1..][j - 1];
      if AllSpace(pieces[0]) && AllSpace(rest) {
        forall k | 0 <= k < |s|
          ensures IsSpace(s[k])
        {
          if k >= |pieces[0]| + 2 {
            assert s[k] == rest[k - |pieces[0]| - 2];
          }
        }
      }
    }
  }

  /** Paragraphs that come back unchanged from `"\n\n".join` followed by
      `split("\n\n")`: none holds a blank line and none but the last ends in a
      newline (which would merge with the separator). */
  predicate Separable(paragraphs: seq<string>)
  {
    && |paragraphs| > 0
    && (forall k :: 0 <= k < |paragraphs| ==> !Contains(paragraphs[k], ParagraphBreak))
    && (forall k :: 0 <= k < |paragraphs| - 1 ==> !EndsWith(paragraphs[k], "\n"))
  }

  /** Splitting inverts joining for separable paragraphs; with the round trip
      in the contract of `Split` this makes split and join mutual inverses. */
  lemma {:induction false} SplitJoinParagraphs(paragraphs: seq<string>)
    requires Separable(paragraphs)
    ensures Split(Join(paragraphs, ParagraphBreak), ParagraphBreak) == paragraphs
    decreases |paragraphs|
  {
    var s := Join(paragraphs, ParagraphBreak);
    var p := paragraphs[0];
    if |paragraphs| == 1 {
      match FindFrom(s, ParagraphBreak, 0)
      case None =>
      case Some(i) =>
        assert false;
    } else {
      var rest := Join(paragraphs[1..], ParagraphBreak);
      JoinCons(p, paragraphs[1..], ParagraphBreak);
      assert paragraphs == [p] + paragraphs[1..];
      assert s == p + ParagraphBreak + rest;
      assert OccursAt(s, ParagraphBreak, |p|);
      forall j: nat | j < |p|
        ensures !OccursAt(s, ParagraphBreak, j)
      {
        if j + 2 <= |p| {
          assert p[j..j + 2] == s[j..j + 2];
          assert !OccursAt(p, ParagraphBreak, j);
        } else {
          assert p[|p| - 1..] == [p[|p| - 1]];
          assert s[j] == p[|p| - 1] != '\n';
          assert j + 2 <= |s| ==> s[j..j + 2][0] == s[j];
        }
      }
      assert FindFrom(s, ParagraphBreak, 0) == Some(|p|);
      assert s[..|p|] == p;
      assert s[|p| + 2..] == rest;
      SplitJoinParagraphs(paragraphs[1..]);
      assert Split(s, ParagraphBreak) == [p] + Split(rest, ParagraphBreak);
      assert paragraphs == [p] + paragraphs[1..];
    }
  }

  /** A document made of separable paragraphs chunks into exactly its
      non-blank paragraphs, stripped, in their order. */
  lemma ChunkParagraphs(paragraphs: seq<string>)
    requires Separable(paragraphs)
    ensures ChunkText(Join(paragraphs, ParagraphBreak)) == KeepNonBlank(paragraphs)
  {
    SplitJoinParagraphs(paragraphs);
  }

  /** How chunking proceeds at the first paragraph break, if there is one. */
  lemma ChunkTextStep(content: string)
    ensures FindFrom(content, ParagraphBreak, 0).None? ==>
              ChunkText(content) == (if Strip(content) == [] then [] else [Strip(content)])
    ensures FindFrom(content, ParagraphBreak, 0).Some? ==>
              var i := FindFrom(content, ParagraphBreak, 0).value;
              var c := Strip(content[..i]);
              ChunkText(content) ==
                (if c == [] then [] else [c]) + ChunkText(content[i + |ParagraphBreak|..])
  {
    var pieces := Split(content, ParagraphBreak);
    match FindFrom(content, ParagraphBreak, 0)
    case None =>
      assert pieces == [content];
      assert pieces[1..] == [];
    case Some(i) =>
      assert pieces[1..] == Split(content[i + |ParagraphBreak|..], ParagraphBreak);
  }

  /** `chunks` occur in `s` at `starts`, each ending at least a paragraph
      break before the next begins. */
  predicate PlacedInOrder(chunks: seq<string>, s: string, starts: seq<nat>)
  {
    && |starts| == |chunks|
    && (forall k :: 0 <= k < |starts| ==> OccursAt(s, chunks[k], starts[k]))
    && (forall k :: 0 <= k < |starts| - 1 ==>
          starts[k] + |chunks[k]| + |ParagraphBreak| <= starts[k + 1])
  }

  lemma PlacedShift(chunks: seq<string>, s: string, off: nat, starts: seq<nat>) returns (moved: seq<nat>)
    requires off <= |s|
    requires PlacedInOrder(chunks, s[off..], starts)
    ensures PlacedInOrder(chunks, s, moved)
    ensures |moved| > 0 ==> moved[0] == starts[0] + off
  {
    moved := seq(|starts|, k requires 0 <= k < |starts| => starts[k] + off);
    forall k | 0 <= k < |starts|
      ensures OccursAt(s, chunks[k], moved[k])
    {
      assert s[off..|s|] == s[off..];
      OccursInSlice(s, off, |s|, chunks[k], starts[k]);
    }
  }

  lemma PlacedCons(c: string, at: nat, chunks: seq<string>, s: string, starts: seq<nat>)
    requires OccursAt(s, c, at)
    requires PlacedInOrder(chunks, s, starts)
    requires |starts| > 0 ==> at + |c| + |ParagraphBreak| <= starts[0]
    ensures PlacedInOrder([c] + chunks, s, [at] + starts)
  {
    var all := [c] + chunks;
    var positions := [at] + starts;
    forall k | 1 <= k < |positions|
      ensures positions[k] == starts[k - 1] && all[k] == chunks[k - 1]
    {
    }
  }

  /** The inductive step of `ChunksInDocumentOrder`: the chunk cut from the
      text before the first paragraph break (if any) goes in front of the
      chunks placed in the text after it. */
  lemma PlaceHead(content: string, i: nat, tailChunks: seq<string>, later: seq<nat>)
    returns (starts: seq<nat>)
    requires i + |ParagraphBreak| <= |content|
    requires PlacedInOrder(tailChunks, content[i + |ParagraphBreak|..], later)
    ensures var c := Strip(content[..i]);
            PlacedInOrder((if c == [] then [] else [c]) + tailChunks, content, starts)
  {
    var head := content[..i];
    var moved := PlacedShift(tailChunks, content, i + |ParagraphBreak|, later);
    var c := Strip(head);
    if c == [] {
      assert [] + tailChunks == tailChunks;
      starts := moved;
    } else {
      OccursInSlice(content, 0, i, c, SkipSpaces(head, 0));
      starts := [SkipSpaces(head, 0)] + moved;
      PlacedCons(c, SkipSpaces(head, 0), tailChunks, content, moved);
    }
  }

  lemma PlaceWhole(content: string) returns (starts: seq<nat>)
    requires FindFrom(content, ParagraphBreak, 0).None?
    ensures PlacedInOrder(ChunkText(content), content, starts)
  {
    ChunkTextStep(content);
    starts := if Strip(content) == [] then [] else [SkipSpaces(content, 0)];
  }

  lemma PlaceAfterBreak(content: string, i: nat, later: seq<nat>) returns (starts: seq<nat>)
    requires FindFrom(content, ParagraphBreak, 0) == Some(i)
    requires PlacedInOrder(ChunkText(content[i + |ParagraphBreak|..]), content[i + |ParagraphBreak|..], later)
    ensures PlacedInOrder(ChunkText(content), content, starts)
  {
    ChunkTextStep(content);
    var c := Strip(content[..i]);
    var tailChunks := ChunkText(content[i + |ParagraphBreak|..]);
    starts := PlaceHead(content, i, tailChunks, later);
    assert ChunkText(content) == (if c == [] then [] else [c]) + tailChunks;
  }

  /** Chunks keep document order: each chunk occurs in the text at its
      returned start, and each one ends before the next one starts (with at
      least the paragraph break in between). */
  lemma {:induction false} ChunksInDocumentOrder(content: string) returns (starts: seq<nat>)
    ensures PlacedInOrder(ChunkText(content), content, starts)
    decreases |content|
  {
    match FindFrom(content, ParagraphBreak, 0)
    case None =>
      starts := PlaceWhole(content);
    case Some(i) =>
      var later := ChunksInDocumentOrder(content[i + |ParagraphBreak|..]);
      starts := PlaceAfterBreak(content, i, later);
  }
}

=== FILE: documents.dfy ===
/** Reading an uploaded or ingested file into text, shared by main.py and
    ingest.py: the extension picks the reader, PDF pages are concatenated
    each followed by a newline, and `.txt` files are read as UTF-8. The
    page extraction and the decoding themselves are library calls, so a
    file is represented by what each reader would return for it. */
module Documents {
  import opened Wrappers
  import opened PyText
  import opened Chunker

  /** What the two readers see of one file: the text of each PDF page as
      `PdfReader(...).pages[i].extract_text()` returns it, and the file's
      bytes decoded as UTF-8, before the newline translation of a text-mode
      read. Either may be the message of the exception raised instead. */
  datatype FileView = FileView(pdfPages: Result<seq<string>, string>, utf8Text: Result<string, string>)

  /** Sum of the lengths of the strings. */
  function TotalLength(xs: seq<string>): nat
  {
    if xs == [] then 0 else TotalLength(xs[..|xs| - 1]) + |xs[|xs| - 1]|
  }

  /** `read_pdf` (main.py:75-80, ingest.py:27-32): starting from "", each page's
      text is appended followed by a newline, in page order. */
  function PdfText(pages: seq<string>): (text: string)
    ensures |text| == TotalLength(pages) + |pages|
  {
    if pages == [] then "" else PdfText(pages[..|pages| - 1]) + pages[|pages| - 1] + "\n"
  }

  /** Where page `k` starts in the concatenated text. */
  function PageStart(pages: seq<string>, k: nat): nat
    requires k <= |pages|
  {
    TotalLength(pages[..k]) + k
  }

  /** The layout of `read_pdf`'s result: page `k` sits at `PageStart(pages, k)`
      and is followed by a newline. */
  lemma {:induction false} PdfTextLayout(pages: seq<string>, k: nat)
    requires k < |pages|
    ensures PageStart(pages, k) + |pages[k]| < |PdfText(pages)|
    ensures PdfText(pages)[PageStart(pages, k)..PageStart(pages, k) + |pages[k]|] == pages[k]
    ensures PdfText(pages)[PageStart(pages, k) + |pages[k]|] == '\n'
    decreases |pages|
  {
    var init := pages[..|pages| - 1];
    var text := PdfText(pages);
    assert text == PdfText(init) + pages[|pages| - 1] + "\n";
    if k == |pages| - 1 {
      assert pages[..k] == init;
    } else {
      PdfTextLayout(init, k);
      assert init[..k] == pages[..k];
      assert init[k] == pages[k];
      var lo := PageStart(pages, k);
      assert text[lo..lo + |pages[k]|] == PdfText(init)[lo..lo + |pages[k]|];
    }
  }

  const PdfExtension := ".pdf"
  const TextExtension := ".txt"

  predicate IsSupported(filename: string)
  {
    EndsWith(filename, PdfExtension) || EndsWith(filename, TextExtension)
  }

  /** What the newline translation of a text-mode read (`open(path, "r")`
      with the default `newline=None`) writes for the start of `s`: a
      newline for a carriage return, otherwise the character itself. */
  function Emit(s: string): string
    requires s != []
  {
    if s[0] == '\r' then "\n" else [s[0]]
  }

  /** What the translation reads on from: past a leading `"\r\n"`, or past
      one character. */
  function Rest(s: string): (rest: string)
    requires s != []
    ensures |rest| < |s|
  {
    if s[0] == '\r' && |s| > 1 && s[1] == '\n' then s[2..] else s[1..]
  }

  /** The translation: `"\r\n"` and a lone `"\r"` each become `"\n"`,
      everything else is kept. */
  function Translate(s: string): (r: string)
    ensures |r| <= |s|
    decreases |s|
  {
    if s == [] then [] else Emit(s) + Translate(Rest(s))
  }

  /** What `f.read()` returns for a file whose decoded text is `s`: no
      carriage return survives, and the text never grows. */
  function UniversalNewlines(s: string): (r: string)
    ensures |r| <= |s|
    ensures forall k :: 0 <= k < |r| ==> r[k] != '\r'
  {
    NoReturnLeft(s);
    Translate(s)
  }

  /** No carriage return survives the translation. */
  lemma {:induction false} NoReturnLeft(s: string)
    ensures forall k :: 0 <= k < |Translate(s)| ==> Translate(s)[k] != '\r'
    decreases |s|
  {
    if s != [] {
      NoReturnLeft(Rest(s));
    }
  }

  /** A text without carriage returns is read exactly as decoded. */
  lemma {:induction false} TranslateKeeps(s: string)
    requires forall k :: 0 <= k < |s| ==> s[k] != '\r'
    ensures Translate(s) == s
    decreases |s|
  {
    if s != [] {
      assert forall k :: 0 <= k < |s[1..]| ==> s[1..][k] == s[k + 1];
      TranslateKeeps(s[1..]);
      assert s == [s[0]] + s[1..];
    }
  }

  /** Translation changes exactly the texts that hold a carriage return. */
  lemma UniversalNewlinesUnchanged(s: string)
    ensures UniversalNewlines(s) == s <==> forall k :: 0 <= k < |s| ==> s[k] != '\r'
  {
    if forall k :: 0 <= k < |s| ==> s[k] != '\r' {
      TranslateKeeps(s);
    }
  }

  /** A `"\r\n"` cut in two by the boundary between `a` and `b`. */
  predicate CutsLineEnd(a: string, b: string)
  {
    a != [] && a[|a| - 1] == '\r' && b != [] && b[0] == '\n'
  }

  /** While the first part lasts, the two texts take the same step. */
  lemma StepInFirstPart(a: string, b: string)
    requires a != [] && !CutsLineEnd(a, b)
    ensures Emit(a + b) == Emit(a)
    ensures Rest(a + b) == Rest(a) + b
    ensures !CutsLineEnd(Rest(a), b)
  {
    var s := a + b;
    assert s[0] == a[0];
    if |a| > 1 {
      assert s[1] == a[1];
      assert s[2..] == a[2..] + b by {
        if a[0] == '\r' && a[1] == '\n' {
          assert |a| >= 2;
        }
      }
      assert s[1..] == a[1..] + b;
    } else {
      assert s[1..] == b;
      if |s| > 1 {
        assert s[1] == b[0];
      }
    }
    var r := Rest(a);
    if r != [] {
      assert r[|r| - 1] == a[|a| - 1];
    }
  }

  /** Translation of a text that starts with the first part, when the
      parts do not cut a `"\r\n"` in two. */
  lemma {:induction false} TranslateAppend(a: string, b: string)
    requires !CutsLineEnd(a, b)
    ensures Translate(a + b) == Translate(a) + Translate(b)
    decreases |a|
  {
    if a == [] {
      assert a + b == b;
    } else {
      StepInFirstPart(a, b);
      TranslateAppend(Rest(a), b);
      assert Emit(a) + (Translate(Rest(a)) + Translate(b))
          == (Emit(a) + Translate(Rest(a))) + Translate(b);
    }
  }

  /** Reading a text is reading its parts one after the other, unless the
      cut falls inside a `"\r\n"`. With the single line-end values below
      this determines the translation completely. */
  lemma UniversalNewlinesAppend(a: string, b: string)
    requires !CutsLineEnd(a, b)
    ensures UniversalNewlines(a + b) == UniversalNewlines(a) + UniversalNewlines(b)
  {
    TranslateAppend(a, b);
  }

  /** `"\r\n"` and a lone `"\r"` are each read as one `"\n"`. */
  lemma LineEndsRead()
    ensures UniversalNewlines("\r\n") == "\n"
    ensures UniversalNewlines("\r") == "\n"
  {
    assert Rest("\r\n") == [];
    assert Rest("\r") == [];
  }

  /** Every other character is read as itself. */
  lemma OtherCharRead(ch: char)
    requires ch != '\r'
    ensures UniversalNewlines([ch]) == [ch]
  {
    assert Rest([ch]) == [];
  }

  /** A lone carriage return between two texts becomes a newline. */
  lemma LoneCarriageReturn(a: string, b: string)
    requires b == [] || b[0] != '\n'
    ensures UniversalNewlines(a + "\r" + b) == UniversalNewlines(a) + "\n" + UniversalNewlines(b)
  {
    LineEndsRead();
    UniversalNewlinesAppend(a, "\r");
    UniversalNewlinesAppend(a + "\r", b);
  }

  /** A `"\r\n"` between two texts becomes a newline. */
  lemma CarriageReturnLineFeed(a: string, b: string)
    ensures UniversalNewlines(a + "\r\n" + b) == UniversalNewlines(a) + "\n" + UniversalNewlines(b)
  {
    LineEndsRead();
    UniversalNewlinesAppend(a, "\r\n");
    var a' := a + "\r\n";
    assert a'[|a'| - 1] == '\n';
    UniversalNewlinesAppend(a', b);
  }

  /** Old Mac line ends: `"a\r\rb"` is read as `"a\n\nb"`, a paragraph
      break. */
  lemma MacParagraphBreak()
    ensures UniversalNewlines("a\r\rb") == "a\n\nb"
  {
    OtherCharRead('a');
    OtherCharRead('b');
    assert "a\r\rb" == "a" + "\r" + ("\r" + "b");
    assert "\r" + "b" == [] + "\r" + "b";
    LoneCarriageReturn([], "b");
    LoneCarriageReturn("a", "\r" + "b");
    assert UniversalNewlines([]) == [];
  }

  /** Paragraphs of a file saved with Windows line ends are separated by
      `"\r\n\r\n"`, which the text-mode read turns into a blank line. */
  lemma WindowsParagraphBreak()
    ensures UniversalNewlines("a\r\n\r\nb") == "a\n\nb"
  {
    OtherCharRead('a');
    OtherCharRead('b');
    assert "a\r\n\r\nb" == "a" + "\r\n" + ("\r\n" + "b");
    assert "\r\n" + "b" == [] + "\r\n" + "b";
    CarriageReturnLineFeed([], "b");
    CarriageReturnLineFeed("a", "\r\n" + "b");
    assert UniversalNewlines([]) == [];
  }

  /** A line without newlines holds no paragraph break and does not end in
      a newline. */
  lemma OneLineParagraph(a: string)
    requires a != []
    requires forall k :: 0 <= k < |a| ==> a[k] != '\n'
    ensures !Contains(a, ParagraphBreak) && !EndsWith(a, "\n")
  {
    forall i: nat | i <= |a|
      ensures !OccursAt(a, ParagraphBreak, i)
    {
      if i + |ParagraphBreak| <= |a| {
        assert a[i..i + |ParagraphBreak|][0] == a[i];
      }
    }
    assert a[|a| - 1..] == [a[|a| - 1]];
  }

  /** A non-empty stripped piece is kept as it is. */
  lemma KeepStripped(a: string, rest: seq<string>)
    requires a != [] && IsStripped(a)
    ensures KeepNonBlank([a] + rest) == [a] + KeepNonBlank(rest)
  {
    StripCore([], a, []);
    assert [] + a + [] == a;
    assert ([a] + rest)[1..] == rest;
  }

  /** Non-empty stripped pieces are all kept, unchanged. */
  lemma KeepStrippedPair(a: string, b: string)
    requires a != [] && b != [] && IsStripped(a) && IsStripped(b)
    ensures KeepNonBlank([a, b]) == [a, b]
  {
    KeepStripped(b, []);
    assert [b] + [] == [b];
    KeepStripped(a, [b]);
    assert [a] + [b] == [a, b];
  }

  /** Two one-line paragraphs separated by a blank line chunk into
      themselves. */
  lemma TwoLinesChunk(a: string, b: string)
    requires a != [] && b != [] && IsStripped(a) && IsStripped(b)
    requires forall k :: 0 <= k < |a| ==> a[k] != '\n'
    requires forall k :: 0 <= k < |b| ==> b[k] != '\n'
    ensures ChunkText(a + ParagraphBreak + b) == [a, b]
  {
    var paragraphs := [a, b];
    assert paragraphs[1..] == [b];
    assert Join(paragraphs, ParagraphBreak) == a + ParagraphBreak + b;
    OneLineParagraph(a);
    OneLineParagraph(b);
    assert Separable(paragraphs);
    ChunkParagraphs(paragraphs);
    KeepStrippedPair(a, b);
  }

  /** Two texts without carriage returns around a Windows blank line are
      read with a blank line between them. */
  lemma WindowsBlankLine(a: string, b: string)
    requires forall k :: 0 <= k < |a| ==> a[k] != '\r'
    requires forall k :: 0 <= k < |b| ==> b[k] != '\r'
    ensures UniversalNewlines(a + "\r\n\r\n" + b) == a + ParagraphBreak + b
  {
    var tail := "\r\n" + b;
    assert a + "\r\n\r\n" + b == a + "\r\n" + tail;
    assert tail == [] + "\r\n" + b;
    CarriageReturnLineFeed([], b);
    CarriageReturnLineFeed(a, tail);
    UniversalNewlinesUnchanged(a);
    UniversalNewlinesUnchanged(b);
    assert UniversalNewlines(tail) == "\n" + b;
    assert a + "\n" + ("\n" + b) == a + ParagraphBreak + b;
  }

  /** A text of two one-line paragraphs saved with Windows line ends
      chunks into the two lines. */
  lemma WindowsFileChunks(a: string, b: string)
    requires a != [] && b != [] && IsStripped(a) && IsStripped(b)
    requires forall k :: 0 <= k < |a| ==> a[k] != '\r' && a[k] != '\n'
    requires forall k :: 0 <= k < |b| ==> b[k] != '\r' && b[k] != '\n'
    ensures ChunkText(UniversalNewlines(a + "\r\n\r\n" + b)) == [a, b]
  {
    WindowsBlankLine(a, b);
    TwoLinesChunk(a, b);
  }

  /** For example, `"a\r\n\r\nb"` chunks into `["a", "b"]`. */
  lemma WindowsExampleChunks()
    ensures ChunkText(UniversalNewlines("a\r\n\r\nb")) == ["a", "b"]
  {
    assert "a\r\n\r\nb" == "a" + "\r\n\r\n" + "b";
    WindowsFileChunks("a", "b");
  }

  /** The extension dispatch of main.py:113-117 and ingest.py:60-66: a `.pdf`
      name is read as PDF, a `.txt` name as text in text mode, and any other
      name is not read at all (`None`). A reader's exception becomes
      `Failure`. */
  function ReadDocument(filename: string, view: FileView): (r: Option<Result<string, string>>)
    ensures r.None? <==> !IsSupported(filename)
    ensures EndsWith(filename, PdfExtension) ==>
              && (view.pdfPages.Success? ==> r == Some(Success(PdfText(view.pdfPages.value))))
              && (view.pdfPages.Failure? ==> r == Some(Failure(view.pdfPages.error)))
    ensures !EndsWith(filename, PdfExtension) && EndsWith(filename, TextExtension) ==>
              && (view.utf8Text.Success? ==> r == Some(Success(UniversalNewlines(view.utf8Text.value))))
              && (view.utf8Text.Failure? ==> r == Some(Failure(view.utf8Text.error)))
  {
    if EndsWith(filename, PdfExtension) then
      match view.pdfPages
      case Success(pages) => Some(Success(PdfText(pages)))
      case Failure(e) => Some(Failure(e))
    else if EndsWith(filename, TextExtension) then
      match view.utf8Text
      case Success(text) => Some(Success(UniversalNewlines(text)))
      case Failure(e) => Some(Failure(e))
    else None
  }

  /** Reading fails exactly when the reader the extension picks raises. */
  lemma ReadFailsOnlyInReader(filename: string, view: FileView)
    ensures var r := ReadDocument(filename, view);
            r.Some? && r.value.Failure? <==>
              if EndsWith(filename, PdfExtension) then view.pdfPages.Failure?
              else EndsWith(filename, TextExtension) && view.utf8Text.Failure?
  {
  }

  /** Every page of a PDF that was read is in the text the chunker gets. */
  lemma ReadPdfHoldsEveryPage(filename: string, view: FileView, k: nat)
    requires EndsWith(filename, PdfExtension) && view.pdfPages.Success?
    requires k < |view.pdfPages.value|
    ensures var r := ReadDocument(filename, view);
            r.Some? && r.value.Success? && Contains(r.value.value, view.pdfPages.value[k])
  {
    var pages := view.pdfPages.value;
    PdfTextLayout(pages, k);
    assert OccursAt(PdfText(pages), pages[k], PageStart(pages, k));
  }

  /** A `.txt` upload or ingested file with two paragraphs and Windows line
      ends reaches the chunker with a blank line between them, and gives the
      two paragraphs as chunks. */
  lemma WindowsTextFileChunks(filename: string, view: FileView, a: string, b: string)
    requires EndsWith(filename, TextExtension)
    requires view.utf8Text == Success(a + "\r\n\r\n" + b)
    requires a != [] && b != [] && IsStripped(a) && IsStripped(b)
    requires forall k :: 0 <= k < |a| ==> a[k] != '\r' && a[k] != '\n'
    requires forall k :: 0 <= k < |b| ==> b[k] != '\r' && b[k] != '\n'
    ensures var r := ReadDocument(filename, view);
            r.Some? && r.value.Success? && ChunkText(r.value.value) == [a, b]
  {
    var last := filename[|filename| - 4..];
    assert last == TextExtension && last[3] != PdfExtension[3];
    WindowsFileChunks(a, b);
  }
}

=== FILE: ingest.dfy ===
/** The batch ingest script ingest.py (lines 44-95): walk the directory
    listing, chunk every regular `.pdf` / `.txt` file, number the chunks
    `doc_0, doc_1, ...` across all files, record each chunk's file as its
    source, and send everything to the collection in batches of 100. */
module Ingest {
  import opened Wrappers
  import opened PyText
  import opened Chunker
  import opened Documents
  import opened VectorStore
  import Upload

  /** One name of `os.listdir(DOCS_FOLDER)`, whether `os.path.isfile` holds
      for it, and what the readers return for it. */
  datatype DirEntry = DirEntry(name: string, isFile: bool, view: FileView)

  /** What one directory entry adds to the corpus. */
  datatype Contribution = Skipped | ReadFailed(error: string) | Chunks(texts: seq<string>)

  /** ingest.py:55-69: entries that are not regular files and names with
      another extension are skipped; a reader's exception ends the script. */
  function Contribute(e: DirEntry): (c: Contribution)
    ensures c.Skipped? <==> !e.isFile || !IsSupported(e.name)
    ensures c.Chunks? ==> forall k :: 0 <= k < |c.texts| ==> IsChunk(c.texts[k])
    ensures c.ReadFailed? <==>
              && e.isFile
              && ReadDocument(e.name, e.view).Some?
              && ReadDocument(e.name, e.view).value.Failure?
    ensures c.ReadFailed? ==> c.error == ReadDocument(e.name, e.view).value.error
    ensures c.Chunks? ==> c.texts == ChunkText(ReadDocument(e.name, e.view).value.value)
  {
    if !e.isFile then Skipped
    else match ReadDocument(e.name, e.view)
      case None => Skipped
      case Some(Failure(err)) => ReadFailed(err)
      case Some(Success(content)) => Chunks(ChunkText(content))
  }

  /** A chunk with the file it came from. */
  datatype Piece = Piece(text: string, source: string)

  function Tag(texts: seq<string>, source: string): seq<Piece>
  {
    seq(|texts|, k requires 0 <= k < |texts| => Piece(texts[k], source))
  }

  /** Reference definition of what the whole directory contributes: each
      accepted file's chunks, tagged with its name, files in listing order;
      or the first read error. */
  function Collect(entries: seq<DirEntry>): (r: Result<seq<Piece>, string>)
    ensures r.Success? ==> forall k :: 0 <= k < |r.value| ==> IsChunk(r.value[k].text)
    decreases |entries|
  {
    if entries == [] then Success([])
    else
      var rest := Collect(entries[1..]);
      match Contribute(entries[0])
      case Skipped => rest
      case ReadFailed(err) => Failure(err)
      case Chunks(texts) =>
        match rest
        case Failure(err) => Failure(err)
        case Success(later) =>
          var here := Tag(texts, entries[0].name);
          assert forall k :: 0 <= k < |here| ==> here[k].text == texts[k];
          AllChunksConcat(here, later);
          Success(here + later)
  }

  /** Pieces that are all chunks stay so when put together. */
  lemma AllChunksConcat(xs: seq<Piece>, ys: seq<Piece>)
    requires forall k :: 0 <= k < |xs| ==> IsChunk(xs[k].text)
    requires forall k :: 0 <= k < |ys| ==> IsChunk(ys[k].text)
    ensures forall k :: 0 <= k < |xs + ys| ==> IsChunk((xs + ys)[k].text)
  {
    forall k | |xs| <= k < |xs + ys|
      ensures IsChunk((xs + ys)[k].text)
    {
      assert (xs + ys)[k] == ys[k - |xs|];
    }
  }

  /** Sequential composition of two partial collections. */
  function Combine(first: Result<seq<Piece>, string>, second: Result<seq<Piece>, string>): Result<seq<Piece>, string>
  {
    match first
    case Failure(err) => Failure(err)
    case Success(x) =>
      match second
      case Failure(err) => Failure(err)
      case Success(y) => Success(x + y)
  }

  /** Collecting a listing in two parts and combining gives the same result
      as collecting it at once. */
  lemma {:induction false} CollectAppend(a: seq<DirEntry>, b: seq<DirEntry>)
    ensures Collect(a + b) == Combine(Collect(a), Collect(b))
    decreases |a|
  {
    if a == [] {
      assert a + b == b;
      match Collect(b)
      case Failure(_) =>
      case Success(y) => assert [] + y == y;
    } else {
      assert (a + b)[0] == a[0];
      assert (a + b)[1..] == a[1..] + b;
      CollectAppend(a[1..], b);
      match Contribute(a[0])
      case Skipped =>
      case ReadFailed(_) =>
      case Chunks(texts) =>
        match Collect(a[1..])
        case Failure(_) =>
        case Success(x) =>
          match Collect(b)
          case Failure(_) =>
          case Success(y) =>
            assert Tag(texts, a[0].name) + (x + y) == (Tag(texts, a[0].name) + x) + y;
    }
  }

  /** Entries that are not regular files or have another extension
      contribute no chunks, ids or metadata: removing one anywhere from the
      listing changes nothing. */
  lemma SkippedEntryContributesNothing(a: seq<DirEntry>, e: DirEntry, b: seq<DirEntry>)
    requires !e.isFile || !IsSupported(e.name)
    ensures Collect(a + [e] + b) == Collect(a + b)
  {
    CollectAppend(a + [e], b);
    CollectAppend(a, [e]);
    CollectAppend(a, b);
    assert [e][1..] == [];
    match Collect(a)
    case Failure(_) =>
    case Success(x) => assert x + [] == x;
  }

  /** One file's chunks are contiguous in the corpus, in their own order, each
      with the file's name as source, right after everything the entries
      before it contributed. */
  lemma FileChunksContiguous(a: seq<DirEntry>, e: DirEntry, b: seq<DirEntry>)
    requires Collect(a + [e] + b).Success? && Contribute(e).Chunks?
    ensures Collect(a).Success?
    ensures var pieces := Collect(a + [e] + b).value;
            var at := |Collect(a).value|;
            var texts := Contribute(e).texts;
            && at + |texts| <= |pieces|
            && pieces[at..at + |texts|] == Tag(texts, e.name)
  {
    CollectAppend(a + [e], b);
    CollectAppend(a, [e]);
    assert [e][1..] == [];
    var texts := Contribute(e).texts;
    assert Collect([e]) == Success(Tag(texts, e.name) + []);
    assert Tag(texts, e.name) + [] == Tag(texts, e.name);
    var x := Collect(a).value;
    var y := Collect(b).value;
    assert Collect(a + [e] + b).value == x + Tag(texts, e.name) + y;
    assert (x + Tag(texts, e.name) + y)[|x|..|x| + |texts|] == Tag(texts, e.name);
  }

  /** `f"doc_{id_counter}"` */
  function DocId(k: nat): string
  {
    "doc_" + Decimal(k)
  }

  /** Ingest ids are distinct from one another and from every id the upload
      handler makes for a `.pdf` or `.txt` file. */
  lemma DocIdsDistinct(k: nat, m: nat, filename: string, i: nat)
    requires IsSupported(filename)
    ensures DocId(k) == DocId(m) ==> k == m
    ensures DocId(k) != Upload.ChunkId(filename, i)
  {
    assert DocId(k) == Upload.ChunkId("doc", k);
    assert DocId(m) == Upload.ChunkId("doc", m);
    if DocId(k) == DocId(m) {
      Upload.ChunkIdInjective("doc", k, "doc", m);
    }
    if DocId(k) == Upload.ChunkId(filename, i) {
      Upload.ChunkIdInjective("doc", k, filename, i);
    }
  }

  /** The three lists `all_chunks`, `all_ids`, `all_metadatas`. */
  datatype Corpus = Corpus(chunks: seq<string>, ids: seq<string>, metadatas: seq<Metadata>)

  /** `c` holds `pieces` in order, numbered `doc_0 .. doc_{n-1}`, with each
      piece's file as its metadata source. */
  predicate CorpusOf(c: Corpus, pieces: seq<Piece>)
  {
    && |c.chunks| == |c.ids| == |c.metadatas| == |pieces|
    && (forall k :: 0 <= k < |pieces| ==> c.chunks[k] == pieces[k].text)
    && (forall k :: 0 <= k < |pieces| ==> c.metadatas[k] == Metadata(pieces[k].source))
    && (forall k :: 0 <= k < |pieces| ==> c.ids[k] == DocId(k))
  }

  predicate CorpusAligned(c: Corpus)
  {
    |c.chunks| == |c.ids| == |c.metadatas|
  }

  /** `all_*[lo : hi]` as one add call. */
  function Slice(c: Corpus, lo: nat, hi: nat): AddCall
    requires CorpusAligned(c) && lo <= hi <= |c.chunks|
  {
    AddCall(c.ids[lo..hi], c.chunks[lo..hi], c.metadatas[lo..hi])
  }

  /** The batch holding `all_*[i : i + 100]` goes in front of batches
      `k = 1, 2, ...` starting at `i + 100`. */
  lemma BatchesStep(c: Corpus, i: nat, rest: seq<AddCall>)
    requires CorpusAligned(c) && i < |c.chunks|
    requires forall k :: 0 <= k < |rest| ==>
               && i + 100 + k * 100 < |c.chunks|
               && rest[k] == Slice(c, i + 100 + k * 100, Min(i + 100 + k * 100 + 100, |c.chunks|))
    ensures var calls := [Slice(c, i, Min(i + 100, |c.chunks|))] + rest;
            forall k :: 0 <= k < |calls| ==>
              && i + k * 100 < |c.chunks|
              && calls[k] == Slice(c, i + k * 100, Min(i + k * 100 + 100, |c.chunks|))
  {
    var calls := [Slice(c, i, Min(i + 100, |c.chunks|))] + rest;
    forall k | 0 <= k < |calls|
      ensures i + k * 100 < |c.chunks|
      ensures calls[k] == Slice(c, i + k * 100, Min(i + k * 100 + 100, |c.chunks|))
    {
      if k > 0 {
        assert calls[k] == rest[k - 1];
        assert i + 100 + (k - 1) * 100 == i + k * 100;
      }
    }
  }

  /** The number of batches from `i` on is one more than from `i + 100`. */
  lemma BatchCountStep(n: nat, i: nat)
    requires i < n
    ensures (n - i + 99) / 100 == 1 + (if i + 100 < n then (n - (i + 100) + 99) / 100 else 0)
  {
    if i + 100 < n {
      assert n - i + 99 == (n - (i + 100) + 99) + 100;
    }
  }

  /** The loop of ingest.py:83-92 from `i` on: while `i < n`, one add call
      over `all_*[i : i + 100]` (Python's slice stops at `n`), then `i`
      steps by 100. In closed form: `ceil((n - i) / 100)` calls, the `k`-th
      over `[i + 100k, min(i + 100k + 100, n))`. */
  function BatchesFrom(c: Corpus, i: nat): (calls: seq<AddCall>)
    requires CorpusAligned(c)
    ensures |calls| == if i < |c.chunks| then (|c.chunks| - i + 99) / 100 else 0
    ensures forall k :: 0 <= k < |calls| ==>
              && i + k * 100 < |c.chunks|
              && calls[k] == Slice(c, i + k * 100, Min(i + k * 100 + 100, |c.chunks|))
    decreases |c.chunks| - i
  {
    if |c.chunks| <= i then []
    else
      var rest := BatchesFrom(c, i + 100);
      BatchCountStep(|c.chunks|, i);
      BatchesStep(c, i, rest);
      [Slice(c, i, Min(i + 100, |c.chunks|))] + rest
  }

  /** ingest.py:82-92: one add call for each `i` of `range(0, n, 100)`,
      over `all_*[i : i + 100]`; the `k`-th such `i` is `100 * k`. */
  function Batches(c: Corpus): (calls: seq<AddCall>)
    requires CorpusAligned(c)
    ensures |calls| == (|c.chunks| + 99) / 100
    ensures forall k :: 0 <= k < |calls| ==>
              && k * 100 < |c.chunks|
              && calls[k] == Slice(c, k * 100, Min(k * 100 + 100, |c.chunks|))
  {
    BatchesFrom(c, 0)
  }

  /** ceil(n / 100) batches, each non-empty with at most 100 items, all but
      the last exactly 100, each with its three lists aligned. */
  lemma BatchShapes(c: Corpus)
    requires CorpusAligned(c)
    ensures forall k :: 0 <= k < |Batches(c)| ==>
              Aligned(Batches(c)[k]) && 0 < |Batches(c)[k].ids| <= 100
    ensures forall k :: 0 <= k < |Batches(c)| - 1 ==> |Batches(c)[k].ids| == 100
  {
    var calls := Batches(c);
    var n := |c.chunks|;
    forall k | 0 <= k < |calls| - 1
      ensures |calls[k].ids| == 100
    {
      assert (k + 1) * 100 < n;
    }
  }

  function Flatten<T>(xss: seq<seq<T>>): seq<T>
  {
    if xss == [] then [] else xss[0] + Flatten(xss[1..])
  }

  function IdsOf(calls: seq<AddCall>): seq<seq<string>>
  {
    seq(|calls|, k requires 0 <= k < |calls| => calls[k].ids)
  }

  function DocumentsOf(calls: seq<AddCall>): seq<seq<string>>
  {
    seq(|calls|, k requires 0 <= k < |calls| => calls[k].documents)
  }

  function MetadatasOf(calls: seq<AddCall>): seq<seq<Metadata>>
  {
    seq(|calls|, k requires 0 <= k < |calls| => calls[k].metadatas)
  }

  /** Slices `xs[start + 100k : start + 100k + 100]`, one per `k` of
      `range(start, len(xs), 100)`, concatenate back to `xs[start:]`. */
  lemma {:induction false} FlattenSlices<T>(xs: seq<T>, start: nat, parts: seq<seq<T>>)
    requires start <= |xs|
    requires start == |xs| ==> parts == []
    requires start < |xs| ==> |parts| == (|xs| - start + 99) / 100
    requires forall k :: 0 <= k < |parts| ==>
               && start + k * 100 < |xs|
               && parts[k] == xs[start + k * 100..Min(start + k * 100 + 100, |xs|)]
    ensures Flatten(parts) == xs[start..]
    decreases |xs| - start
  {
    if start < |xs| {
      var next := Min(start + 100, |xs|);
      assert forall k :: 0 <= k < |parts| - 1 ==> parts[1..][k] == parts[k + 1];
      FlattenSlices(xs, next, parts[1..]);
      assert xs[start..] == xs[start..next] + xs[next..];
    }
  }

  /** Concatenating the batches in order gives back the three lists. */
  lemma BatchesReassemble(c: Corpus)
    requires CorpusAligned(c)
    ensures Flatten(IdsOf(Batches(c))) == c.ids
    ensures Flatten(DocumentsOf(Batches(c))) == c.chunks
    ensures Flatten(MetadatasOf(Batches(c))) == c.metadatas
  {
    var calls := Batches(c);
    FlattenSlices(c.ids, 0, IdsOf(calls));
    FlattenSlices(c.chunks, 0, DocumentsOf(calls));
    FlattenSlices(c.metadatas, 0, MetadatasOf(calls));
  }

  /** How a run of the script ends. */
  datatype IngestOutcome =
    | Aborted(error: string)                             // a reader raised
    | NoText                                             // "No text found."
    | Saved(corpus: Corpus, calls: seq<AddCall>)         // the add calls issued

  /** What collecting a single entry gives. */
  lemma CollectOne(e: DirEntry)
    ensures Collect([e]) == match Contribute(e)
                            case Skipped => Success([])
                            case ReadFailed(err) => Failure(err)
                            case Chunks(texts) => Success(Tag(texts, e.name))
  {
    assert [e][1..] == [];
    match Contribute(e)
    case Skipped =>
    case ReadFailed(_) =>
    case Chunks(texts) => assert Tag(texts, e.name) + [] == Tag(texts, e.name);
  }

  /** One more entry of the listing. */
  lemma CollectPrefixStep(entries: seq<DirEntry>, i: nat)
    requires i < |entries|
    ensures Collect(entries[..i + 1]) == Combine(Collect(entries[..i]), Collect([entries[i]]))
  {
    assert entries[..i + 1] == entries[..i] + [entries[i]];
    CollectAppend(entries[..i], [entries[i]]);
  }

  /** A read error aborts the whole collection. */
  lemma CollectFailsAt(entries: seq<DirEntry>, i: nat, err: string)
    requires i < |entries| && Collect(entries[..i]).Success?
    requires Contribute(entries[i]) == ReadFailed(err)
    ensures Collect(entries) == Failure(err)
  {
    assert entries == entries[..i] + entries[i..];
    CollectAppend(entries[..i], entries[i..]);
  }

  /** What one more entry does to the collection so far. */
  lemma CollectStep(entries: seq<DirEntry>, i: nat)
    requires i < |entries| && Collect(entries[..i]).Success?
    ensures var e := entries[i];
            var done := Collect(entries[..i]).value;
            match Contribute(e)
            case Skipped => Collect(entries[..i + 1]) == Success(done)
            case ReadFailed(err) => Collect(entries) == Failure(err)
            case Chunks(texts) => Collect(entries[..i + 1]) == Success(done + Tag(texts, e.name))
  {
    var e := entries[i];
    CollectPrefixStep(entries, i);
    CollectOne(e);
    match Contribute(e)
    case Skipped => assert Collect(entries[..i]).value + [] == Collect(entries[..i]).value;
    case ReadFailed(err) => CollectFailsAt(entries, i, err);
    case Chunks(_) =>
  }

  /** The inner loop of ingest.py:71-76: append one file's chunks, each with a
      fresh `doc_k` id and the file name as source. */
  method AppendFile(chunks: seq<string>, ids: seq<string>, metadatas: seq<Metadata>,
                    counter: nat, done: seq<Piece>, texts: seq<string>, name: string)
    returns (chunks': seq<string>, ids': seq<string>, metadatas': seq<Metadata>, counter': nat)
    requires CorpusOf(Corpus(chunks, ids, metadatas), done) && counter == |done|
    ensures CorpusOf(Corpus(chunks', ids', metadatas'), done + Tag(texts, name))
    ensures counter' == counter + |texts|
  {
    chunks', ids', metadatas', counter' := chunks, ids, metadatas, counter;
    var tagged := Tag(texts, name);
    var j := 0;
    while j < |texts|
      invariant 0 <= j <= |texts|
      invariant CorpusOf(Corpus(chunks', ids', metadatas'), done + tagged[..j])
      invariant counter' == |done| + j
    {
      chunks' := chunks' + [texts[j]];
      ids' := ids' + [DocId(counter')];
      metadatas' := metadatas' + [Metadata(name)];
      counter' := counter' + 1;
      assert done + tagged[..j + 1] == (done + tagged[..j]) + [tagged[j]];
      j := j + 1;
    }
    assert tagged[..j] == tagged;
  }

  /** One pass of the loop of ingest.py:52-76 over entry `i`: skip it, stop
      with the reader's error, or append its chunks. */
  method AddEntry(entries: seq<DirEntry>, i: nat, chunks: seq<string>, ids: seq<string>,
                  metadatas: seq<Metadata>, counter: nat)
    returns (failed: Option<string>, chunks': seq<string>, ids': seq<string>,
             metadatas': seq<Metadata>, counter': nat)
    requires i < |entries| && Collect(entries[..i]).Success?
    requires CorpusOf(Corpus(chunks, ids, metadatas), Collect(entries[..i]).value)
    requires counter == |chunks|
    ensures failed.Some? <==> Contribute(entries[i]).ReadFailed?
    ensures failed.Some? ==> Collect(entries) == Failure(failed.value)
    ensures failed.None? ==>
              && Collect(entries[..i + 1]).Success?
              && CorpusOf(Corpus(chunks', ids', metadatas'), Collect(entries[..i + 1]).value)
              && counter' == |chunks'|
  {
    var e := entries[i];
    var done := Collect(entries[..i]).value;
    CollectStep(entries, i);
    failed, chunks', ids', metadatas', counter' := None, chunks, ids, metadatas, counter;
    match Contribute(e) {
      case Skipped =>
      case ReadFailed(err) =>
        failed := Some(err);
      case Chunks(texts) =>
        chunks', ids', metadatas', counter' := AppendFile(chunks, ids, metadatas, counter, done, texts, e.name);
    }
  }

  /** The loop of ingest.py:52-76: the three lists built from the listing,
      or the error of the first file that could not be read. */
  method BuildCorpus(entries: seq<DirEntry>) returns (r: Result<Corpus, string>)
    ensures r.Failure? <==> Collect(entries).Failure?
    ensures r.Failure? ==> r.error == Collect(entries).error
    ensures r.Success? ==> CorpusOf(r.value, Collect(entries).value)
  {
    var chunks: seq<string> := [];
    var ids: seq<string> := [];
    var metadatas: seq<Metadata> := [];
    var counter: nat := 0;
    var i := 0;
    while i < |entries|
      invariant 0 <= i <= |entries|
      invariant Collect(entries[..i]).Success?
      invariant CorpusOf(Corpus(chunks, ids, metadatas), Collect(entries[..i]).value)
      invariant counter == |chunks|
    {
      var failed;
      failed, chunks, ids, metadatas, counter := AddEntry(entries, i, chunks, ids, metadatas, counter);
      if failed.Some? {
        return Failure(failed.value);
      }
      i := i + 1;
    }
    assert entries[..i] == entries;
    return Success(Corpus(chunks, ids, metadatas));
  }

  /** The script from the directory listing on (ingest.py:47-95): stop at a
      read error, report when there is no text, otherwise add everything in
      batches. */
  method Ingest(entries: seq<DirEntry>) returns (outcome: IngestOutcome)
    ensures outcome.Aborted? <==> Collect(entries).Failure?
    ensures outcome.Aborted? ==> outcome.error == Collect(entries).error
    ensures outcome.NoText? <==> Collect(entries) == Success([])
    ensures outcome.Saved? ==> Collect(entries).Success? && CorpusOf(outcome.corpus, Collect(entries).value)
    ensures outcome.Saved? ==> |outcome.corpus.chunks| > 0
    ensures outcome.Saved? ==> CorpusAligned(outcome.corpus) && outcome.calls == Batches(outcome.corpus)
  {
    var built := BuildCorpus(entries);
    match built {
      case Failure(err) =>
        return Aborted(err);
      case Success(corpus) =>
        if corpus.chunks == [] {
          return NoText;
        }
        return Saved(corpus, Batches(corpus));
    }
  }
}

=== FILE: pytext.dfy ===
/** The handful of Python `str` and slicing operations the service is built
    from, with Python's semantics made explicit: `isspace`, `strip`,
    `split(sep)`, `sep.join`, `endswith`, `in`, `lower` (as far as ASCII
    keywords can observe it), `f"{n}"` for a natural number, and the
    slices `s[:n]` and `s[-n:]`. A Python `str` is a sequence of code
    points, and so is a Dafny `string`. */
module PyText {
  import opened Wrappers

  // ---------------------------------------------------------------------
  // Whitespace and strip()

  /** Python's `str.isspace()` on one code point: the C0 separators
      TAB..CR and FS..US, SPACE, NEL, NBSP, OGHAM SPACE MARK, EN QUAD..HAIR
      SPACE, LINE and PARAGRAPH SEPARATOR, NARROW NBSP, MEDIUM MATHEMATICAL
      SPACE and IDEOGRAPHIC SPACE. */
  predicate IsSpace(c: char)
  {
    || ('\t' <= c <= '\r')
    || ('\U{1C}' <= c <= ' ')
    || c == '\U{85}' || c == '\U{A0}' || c == '\U{1680}'
    || ('\U{2000}' <= c <= '\U{200A}')
    || c == '\U{2028}' || c == '\U{2029}' || c == '\U{202F}'
    || c == '\U{205F}' || c == '\U{3000}'
  }

  predicate AllSpace(s: string)
  {
    forall k :: 0 <= k < |s| ==> IsSpace(s[k])
  }

  /** Neither starts nor ends with whitespace. */
  predicate IsStripped(s: string)
  {
    s == [] || (!IsSpace(s[0]) && !IsSpace(s[|s| - 1]))
  }

  /** The forward scan of CPython's strip: the first index at or after `i`
      that does not hold whitespace, or `|s|`. */
  function SkipSpaces(s: string, i: nat): (e: nat)
    requires i <= |s|
    ensures i <= e <= |s|
    ensures forall k :: i <= k < e ==> IsSpace(s[k])
    ensures e < |s| ==> !IsSpace(s[e])
    decreases |s| - i
  {
    if i < |s| && IsSpace(s[i]) then SkipSpaces(s, i + 1) else i
  }

  /** The backward scan of CPython's strip: from the end `j` down, but not
      below `lo`, past whitespace. */
  function SkipSpacesBack(s: string, lo: nat, j: nat): (e: nat)
    requires lo <= j <= |s|
    ensures lo <= e <= j
    ensures forall k :: e <= k < j ==> IsSpace(s[k])
    ensures e > lo ==> !IsSpace(s[e - 1])
    decreases j
  {
    if j > lo && IsSpace(s[j - 1]) then SkipSpacesBack(s, lo, j - 1) else j
  }

  /** Python's `s.strip()`: the text between the whitespace prefix and the
      whitespace suffix, found where the result starts, right after the
      leading whitespace. */
  function Strip(s: string): (r: string)
    ensures IsStripped(r)
    ensures r == [] <==> AllSpace(s)
    ensures OccursAt(s, r, SkipSpaces(s, 0))
  {
    var i := SkipSpaces(s, 0);
    var j := SkipSpacesBack(s, i, |s|);
    if i < j then
      assert s[i..j][0] == s[i];
      assert s[i..j][j - i - 1] == s[j - 1];
      s[i..j]
    else
      s[i..j]
  }

  lemma {:induction false} SkipSpacesExact(s: string, i: nat, n: nat)
    requires i <= n <= |s|
    requires forall k :: i <= k < n ==> IsSpace(s[k])
    requires n == |s| || !IsSpace(s[n])
    ensures SkipSpaces(s, i) == n
    decreases n - i
  {
    if i < n {
      assert IsSpace(s[i]);
      SkipSpacesExact(s, i + 1, n);
    }
  }

  lemma {:induction false} SkipSpacesBackExact(s: string, lo: nat, j: nat, n: nat)
    requires lo <= n <= j <= |s|
    requires forall k :: n <= k < j ==> IsSpace(s[k])
    requires n == lo || !IsSpace(s[n - 1])
    ensures SkipSpacesBack(s, lo, j) == n
    decreases j
  {
    if n < j {
      assert IsSpace(s[j - 1]);
      SkipSpacesBackExact(s, lo, j - 1, n);
    }
  }

  /** strip() is determined by its meaning: whatever whitespace surrounds a
      stripped core, strip() returns exactly that core. */
  lemma StripCore(lead: string, core: string, trail: string)
    requires AllSpace(lead) && AllSpace(trail) && IsStripped(core)
    ensures Strip(lead + core + trail) == core
  {
    var s := lead + core + trail;
    if core == [] {
      assert s == lead + trail;
      assert AllSpace(s);
    } else {
      var i := |lead|;
      var j := |lead| + |core|;
      assert forall k :: 0 <= k < i ==> s[k] == lead[k];
      assert s[i] == core[0];
      SkipSpacesExact(s, 0, i);
      assert forall k :: j <= k < |s| ==> s[k] == trail[k - j];
      assert s[j - 1] == core[|core| - 1];
      SkipSpacesBackExact(s, i, |s|, j);
      assert s[i..j] == core;
    }
  }

  /** strip() is idempotent. */
  lemma StripIdempotent(s: string)
    ensures Strip(Strip(s)) == Strip(s)
  {
    var r := Strip(s);
    assert [] + r + [] == r;
    StripCore([], r, []);
  }

  // ---------------------------------------------------------------------
  // Substrings: `sub in s`, find, split, join

  /** `sub` occurs in `s` starting at index `i`. */
  predicate OccursAt(s: string, sub: string, i: nat)
  {
    i + |sub| <= |s| && s[i..i + |sub|] == sub
  }

  /** Python's `sub in s`. */
  predicate Contains(s: string, sub: string)
  {
    exists i: nat | i <= |s| :: OccursAt(s, sub, i)
  }

  lemma OccursInSlice(s: string, lo: nat, hi: nat, sub: string, i: nat)
    requires lo <= hi <= |s|
    requires OccursAt(s[lo..hi], sub, i)
    ensures OccursAt(s, sub, lo + i)
  {
    var w := s[lo..hi][i..i + |sub|];
    assert forall k :: 0 <= k < |sub| ==> w[k] == s[lo + i..lo + i + |sub|][k];
  }

  /** A slice of a string that does not contain `sub` does not contain it either. */
  lemma NotContainsSlice(s: string, lo: nat, hi: nat, sub: string)
    requires lo <= hi <= |s|
    requires !Contains(s, sub)
    ensures !Contains(s[lo..hi], sub)
  {
    if Contains(s[lo..hi], sub) {
      var i: nat :| OccursAt(s[lo..hi], sub, i);
      OccursInSlice(s, lo, hi, sub, i);
    }
  }

  /** strip() cuts a slice out of `s`, so it cannot create an occurrence of
      `sub` that `s` does not have. */
  lemma StripKeepsAbsent(s: string, sub: string)
    ensures !Contains(s, sub) ==> !Contains(Strip(s), sub)
  {
    if !Contains(s, sub) {
      NotContainsSlice(s, SkipSpaces(s, 0), SkipSpaces(s, 0) + |Strip(s)|, sub);
    }
  }

  /** The first index at or after `from` where `sub` occurs, as Python's
      `str.find(sub, from)` computes it (with `None` for -1). */
  function FindFrom(s: string, sub: string, from: nat): (r: Option<nat>)
    ensures r.Some? ==> from <= r.value && OccursAt(s, sub, r.value)
    ensures r.Some? ==> forall j: nat :: from <= j < r.value ==> !OccursAt(s, sub, j)
    ensures r.None? ==> forall j: nat :: from <= j ==> !OccursAt(s, sub, j)
    decreases |s| - from
  {
    if from + |sub| > |s| then None
    else if s[from..from + |sub|] == sub then Some(from)
    else FindFrom(s, sub, from + 1)
  }

  /** Python's `sep.join(parts)`. */
  function Join(parts: seq<string>, sep: string): (r: string)
    ensures |parts| > 0 ==> parts[0] <= r
  {
    if |parts| == 0 then ""
    else if |parts| == 1 then parts[0]
    else parts[0] + sep + Join(parts[1..], sep)
  }

  /** Python's `s.split(sep)` for a non-empty separator: cut at every
      occurrence of `sep`, scanning left to right without overlaps. The
      pieces never contain the separator. */
  function Split(s: string, sep: string): (parts: seq<string>)
    requires |sep| > 0
    ensures |parts| > 0
    ensures forall k :: 0 <= k < |parts| ==> !Contains(parts[k], sep)
    decreases |s|
  {
    match FindFrom(s, sep, 0)
    case None =>
      assert !Contains(s, sep);
      [s]
    case Some(i) =>
      var rest := Split(s[i + |sep|..], sep);
      var parts := [s[..i]] + rest;
      assert !Contains(s[..i], sep) by {
        if Contains(s[..i], sep) {
          var j: nat :| OccursAt(s[..i], sep, j);
          OccursInSlice(s, 0, i, sep, j);
        }
      }
      assert parts[1..] == rest;
      parts
  }

  /** Joining the pieces of a split with the separator gives the text back. */
  lemma {:induction false} JoinSplit(s: string, sep: string)
    requires |sep| > 0
    ensures Join(Split(s, sep), sep) == s
    decreases |s|
  {
    match FindFrom(s, sep, 0)
    case None =>
    case Some(i) =>
      var tail := s[i + |sep|..];
      JoinSplit(tail, sep);
      var rest := Split(tail, sep);
      assert Split(s, sep) == [s[..i]] + rest;
      JoinCons(s[..i], rest, sep);
      assert s == s[..i] + sep + tail;
  }

  lemma JoinCons(head: string, rest: seq<string>, sep: string)
    requires |rest| > 0
    ensures Join([head] + rest, sep) == head + sep + Join(rest, sep)
  {
    assert ([head] + rest)[1..] == rest;
  }

  /** Every part of a join occurs in the joined text, at the offset the
      parts and separators before it take up. */
  lemma {:induction false} JoinContainsParts(parts: seq<string>, sep: string, k: nat)
    requires k < |parts|
    ensures Contains(Join(parts, sep), parts[k])
    decreases k
  {
    var s := Join(parts, sep);
    if k == 0 {
      assert OccursAt(s, parts[0], 0);
    } else {
      var rest := Join(parts[1..], sep);
      JoinContainsParts(parts[1..], sep, k - 1);
      assert parts[1..][k - 1] == parts[k];
      var i: nat :| i <= |rest| && OccursAt(rest, parts[k], i);
      assert s == parts[0] + sep + rest;
      assert s[|parts[0] + sep|..|s|] == rest;
      OccursInSlice(s, |parts[0] + sep|, |s|, parts[k], i);
    }
  }

  /** With a one-character separator that no part contains, splitting
      undoes joining. */
  lemma {:induction false} SplitJoin(parts: seq<string>, sep: string)
    requires |parts| > 0 && |sep| == 1
    requires forall k :: 0 <= k < |parts| ==> !Contains(parts[k], sep)
    ensures Split(Join(parts, sep), sep) == parts
    decreases |parts|
  {
    var s := Join(parts, sep);
    var p := parts[0];
    if |parts| == 1 {
      match FindFrom(s, sep, 0)
      case None =>
      case Some(i) =>
        assert false;
    } else {
      var rest := Join(parts[1..], sep);
      JoinCons(p, parts[1..], sep);
      assert parts == [p] + parts[1..];
      assert s == p + sep + rest;
      assert OccursAt(s, sep, |p|);
      forall j: nat | j < |p|
        ensures !OccursAt(s, sep, j)
      {
        assert s[j..j + 1] == p[j..j + 1];
        assert !OccursAt(p, sep, j);
      }
      assert FindFrom(s, sep, 0) == Some(|p|);
      assert s[..|p|] == p;
      assert s[|p| + 1..] == rest;
      assert forall k :: 0 <= k < |parts| - 1 ==> parts[1..][k] == parts[k + 1];
      SplitJoin(parts[1..], sep);
      assert Split(s, sep) == [p] + Split(rest, sep);
    }
  }

  /** Python's `s.endswith(suffix)`. */
  predicate EndsWith(s: string, suffix: string)
  {
    |suffix| <= |s| && s[|s| - |suffix|..] == suffix
  }

  // ---------------------------------------------------------------------
  // lower()

  /** Lower-casing of one code point as far as an ASCII keyword can tell:
      A-Z become a-z, KELVIN SIGN becomes `k`, and CAPITAL I WITH DOT ABOVE
      becomes `i` followed by COMBINING DOT ABOVE. Every other code point
      lower-cases, in Python, to code points outside ASCII or to itself,
      and this keeps it as it is. */
  function LowerChar(c: char): string
  {
    if 'A' <= c <= 'Z' then [(c as int + 32) as char]
    else if c == '\U{212A}' then "k"
    else if c == '\U{130}' then "i\U{307}"
    else [c]
  }

  /** `s.lower()`, faithful wherever an ASCII substring test looks: the result
      has no ASCII capital, and has one code point per input code point
      except for CAPITAL I WITH DOT ABOVE. */
  function Lower(s: string): (r: string)
    ensures forall k :: 0 <= k < |r| ==> !('A' <= r[k] <= 'Z')
    ensures (forall k :: 0 <= k < |s| ==> s[k] != '\U{130}') ==> |r| == |s|
  {
    if s == [] then [] else LowerChar(s[0]) + Lower(s[1..])
  }

  /** Away from CAPITAL I WITH DOT ABOVE, lower-casing works code point by
      code point at the same index. */
  lemma {:induction false} LowerAt(s: string, k: nat)
    requires forall j :: 0 <= j < |s| ==> s[j] != '\U{130}'
    requires k < |s|
    ensures |Lower(s)| == |s|
    ensures Lower(s)[k] == LowerChar(s[k])[0]
    decreases k
  {
    assert forall j :: 0 <= j < |s| - 1 ==> s[1..][j] == s[j + 1];
    if k > 0 {
      LowerAt(s[1..], k - 1);
    }
  }

  /** Lower-casing distributes over concatenation. */
  lemma {:induction false} LowerAppend(a: string, b: string)
    ensures Lower(a + b) == Lower(a) + Lower(b)
    decreases |a|
  {
    if a != [] {
      assert (a + b)[0] == a[0];
      assert (a + b)[1..] == a[1..] + b;
      LowerAppend(a[1..], b);
      calc {
        Lower(a + b);
        LowerChar(a[0]) + Lower(a[1..] + b);
        LowerChar(a[0]) + (Lower(a[1..]) + Lower(b));
        (LowerChar(a[0]) + Lower(a[1..])) + Lower(b);
      }
    } else {
      assert a + b == b;
    }
  }

  // ---------------------------------------------------------------------
  // f"{n}" and slices

  predicate IsDigit(c: char)
  {
    '0' <= c <= '9'
  }

  function DigitChar(d: nat): (c: char)
    requires d < 10
    ensures IsDigit(c)
  {
    ('0' as int + d) as char
  }

  /** `f"{n}"` for a natural number: decimal digits, no leading zero. */
  function Decimal(n: nat): (r: string)
    ensures |r| > 0
    ensures forall k :: 0 <= k < |r| ==> IsDigit(r[k])
    ensures r[0] == '0' ==> n == 0
  {
    if n < 10 then [DigitChar(n)] else Decimal(n / 10) + [DigitChar(n % 10)]
  }

  /** The value of a string of decimal digits (Python's `int(s)`). */
  function ParseDecimal(s: string): nat
    requires forall k :: 0 <= k < |s| ==> IsDigit(s[k])
  {
    if s == [] then 0
    else
      assert IsDigit(s[|s| - 1]);
      ParseDecimal(s[..|s| - 1]) * 10 + (s[|s| - 1] as int - '0' as int)
  }

  /** `int(f"{n}") == n`. */
  lemma {:induction false} DecimalRoundTrip(n: nat)
    ensures ParseDecimal(Decimal(n)) == n
  {
    if n >= 10 {
      var d := Decimal(n);
      assert d[..|d| - 1] == Decimal(n / 10);
      DecimalRoundTrip(n / 10);
    }
  }

  /** Distinct numbers print differently. */
  lemma DecimalInjective(m: nat, n: nat)
    requires Decimal(m) == Decimal(n)
    ensures m == n
  {
    DecimalRoundTrip(m);
    DecimalRoundTrip(n);
  }

  /** The smaller of two numbers, as Python's `min`. */
  function Min(a: int, b: int): int
  {
    if a <= b then a else b
  }

  /** Python's `s[:n]` for `n >= 0`. */
  function Take<T>(s: seq<T>, n: nat): (r: seq<T>)
    ensures |r| == Min(n, |s|)
    ensures r <= s
  {
    if n <= |s| then s[..n] else s
  }

  /** Python's `s[-n:]` for `n > 0` (`s[-0:]` would be all of `s`). */
  function Last<T>(s: seq<T>, n: nat): (r: seq<T>)
    requires n > 0
    ensures |r| == Min(n, |s|)
    ensures s[|s| - |r|..] == r
  {
    if n <= |s| then s[|s| - n..] else s
  }
}

=== FILE: retriever.dfy ===
/** What the chat handler does with a similarity query's result
    (main.py:145-158): the returned chunks become one context string, joined
    by newlines and cut to 2500 characters, and their sources become the
    list of distinct files to cite. The query itself is performed by the
    vector store and enters here as its list of hits. */
module Retriever {
  import opened PyText
  import opened VectorStore

  /** `raw_context[:2500]` */
  const ContextLimit := 2500

  /** `"\n".join(...)` */
  const HitSeparator := "\n"

  /** The context text handed to the prompt and the sources to cite. */
  datatype Retrieval = Retrieval(context: string, sources: seq<string>)

  function DocumentsOf(hits: seq<Hit>): seq<string>
  {
    seq(|hits|, k requires 0 <= k < |hits| => hits[k].document)
  }

  function SourcesOf(hits: seq<Hit>): seq<string>
  {
    seq(|hits|, k requires 0 <= k < |hits| => hits[k].source)
  }

  /** main.py:147-156: with no hits the context is empty and there are no
      sources; otherwise the hit texts joined by newlines, cut to the limit,
      and one source per hit in hit order. */
  function Retrieve(hits: seq<Hit>): (r: Retrieval)
    ensures |r.context| <= ContextLimit
    ensures r.context <= Join(DocumentsOf(hits), HitSeparator)
    ensures |r.context| == Min(ContextLimit, |Join(DocumentsOf(hits), HitSeparator)|)
    ensures hits == [] ==> r == Retrieval("", [])
    ensures |r.sources| == |hits|
    ensures forall k :: 0 <= k < |hits| ==> r.sources[k] == hits[k].source
  {
    if hits == [] then Retrieval("", [])
    else Retrieval(Take(Join(DocumentsOf(hits), HitSeparator), ContextLimit), SourcesOf(hits))
  }

  /** When the joined hits fit under the limit and no hit text has a line
      break, the context splits back into exactly the retrieved texts. */
  lemma ContextSplitsIntoHits(hits: seq<Hit>)
    requires hits != []
    requires forall k :: 0 <= k < |hits| ==> !Contains(hits[k].document, HitSeparator)
    requires |Join(DocumentsOf(hits), HitSeparator)| <= ContextLimit
    ensures Split(Retrieve(hits).context, HitSeparator) == DocumentsOf(hits)
  {
    var docs := DocumentsOf(hits);
    assert Retrieve(hits).context == Join(docs, HitSeparator);
    SplitJoin(docs, HitSeparator);
  }

  /** Every retrieved text that fits under the limit is in the context: with
      short enough results the model sees all of them. */
  lemma ShortContextHoldsEveryHit(hits: seq<Hit>, k: nat)
    requires k < |hits|
    requires |Join(DocumentsOf(hits), HitSeparator)| <= ContextLimit
    ensures Contains(Retrieve(hits).context, hits[k].document)
  {
    var docs := DocumentsOf(hits);
    JoinContainsParts(docs, HitSeparator, k);
    assert Retrieve(hits).context == Join(docs, HitSeparator);
    assert docs[k] == hits[k].document;
  }

  /** `list(set(sources))`: each source once. Python's set gives no
      particular order; this keeps first occurrences in order, which is one
      of the orders Python may produce. */
  function Distinct(xs: seq<string>): (r: seq<string>)
    ensures |r| <= |xs|
    ensures forall i, j :: 0 <= i < j < |r| ==> r[i] != r[j]
    ensures forall x :: x in r <==> x in xs
  {
    if xs == [] then []
    else
      var init := xs[..|xs| - 1];
      var last := xs[|xs| - 1];
      assert xs == init + [last];
      if last in init then Distinct(init) else Distinct(init) + [last]
  }

  /** A list without repeats is its own deduplication. */
  lemma {:induction false} DistinctKeepsRepeatFree(xs: seq<string>)
    requires forall i, j :: 0 <= i < j < |xs| ==> xs[i] != xs[j]
    ensures Distinct(xs) == xs
  {
    if xs != [] {
      var init := xs[..|xs| - 1];
      DistinctKeepsRepeatFree(init);
      assert xs == init + [xs[|xs| - 1]];
    }
  }

  /** Deduplicating twice changes nothing. */
  lemma DistinctIdempotent(xs: seq<string>)
    ensures Distinct(Distinct(xs)) == Distinct(xs)
  {
    DistinctKeepsRepeatFree(Distinct(xs));
  }

  /** main.py:158: the sources to cite are the hits' sources, each once. */
  lemma CitedSourcesAreHitSources(hits: seq<Hit>)
    ensures var cited := Distinct(Retrieve(hits).sources);
            && (forall i, j :: 0 <= i < j < |cited| ==> cited[i] != cited[j])
            && (forall s :: s in cited <==> exists k :: 0 <= k < |hits| && hits[k].source == s)
            && (cited == [] <==> hits == [])
  {
    var srcs := Retrieve(hits).sources;
    var cited := Distinct(srcs);
    forall s
      ensures s in cited <==> exists k :: 0 <= k < |hits| && hits[k].source == s
    {
      if s in cited {
        var k :| 0 <= k < |srcs| && srcs[k] == s;
        assert hits[k].source == s;
      }
    }
    if hits != [] {
      assert srcs[0] in cited;
    }
  }
}

=== FILE: upload.dfy ===
/** The `/upload` handler of main.py (lines 106-129) after the file has been
    written to disk: read it by extension, chunk it, and hand the chunks to
    the collection under the ids `<filename>_<i>`. */
module Upload {
  import opened Wrappers
  import opened PyText
  import opened Chunker
  import opened Documents
  import opened VectorStore

  /** The JSON body the handler returns. */
  datatype Response =
    | Ok(filename: string)      // {"status": "success", "filename": ...}
    | Warning(message: string)  // {"status": "warning", "message": ...}
    | Error(message: string)    // {"status": "error", "message": ...}

  /** The response, and the `collection.add` call made, if any. */
  datatype UploadResult = UploadResult(response: Response, added: Option<AddCall>)

  const UnsupportedMessage := "Unsupported file type"
  const EmptyMessage := "File was empty"

  /** `f"{file.filename}_{i}"` */
  function ChunkId(filename: string, i: nat): string
  {
    filename + "_" + Decimal(i)
  }

  /** Chunk ids are injective in both the file name and the index: the last
      underscore of an id is the one before the index, since the index is
      all digits. So ids never clash across different files either. */
  lemma ChunkIdInjective(f: string, i: nat, g: string, j: nat)
    requires ChunkId(f, i) == ChunkId(g, j)
    ensures f == g && i == j
  {
    var s := ChunkId(f, i);
    var di, dj := Decimal(i), Decimal(j);
    assert s == f + "_" + di == g + "_" + dj;
    assert s[|f|] == '_' && s[|g|] == '_';
    assert forall k :: |f| < k < |s| ==> IsDigit(s[k]) by {
      forall k | |f| < k < |s| ensures IsDigit(s[k]) {
        assert s[k] == di[k - |f| - 1];
      }
    }
    assert forall k :: |g| < k < |s| ==> IsDigit(s[k]) by {
      forall k | |g| < k < |s| ensures IsDigit(s[k]) {
        assert s[k] == dj[k - |g| - 1];
      }
    }
    assert |f| == |g|;
    assert di == s[|f| + 1..] == dj;
    DecimalInjective(i, j);
    assert f == s[..|f|] == g;
  }

  /** `call` is the add call for `chunks` of the file `filename`: the three
      lists line up, the documents are the chunks, the ids are
      `filename_0 .. filename_{n-1}` and every source is the file name. */
  predicate IsFileBatch(call: AddCall, filename: string, chunks: seq<string>)
  {
    && Aligned(call)
    && call.documents == chunks
    && (forall i :: 0 <= i < |call.ids| ==> call.ids[i] == ChunkId(filename, i))
    && (forall i :: 0 <= i < |call.metadatas| ==> call.metadatas[i] == Metadata(filename))
  }

  /** The lists built at main.py:119-121. */
  function FileBatch(filename: string, chunks: seq<string>): (call: AddCall)
    ensures IsFileBatch(call, filename, chunks)
    ensures forall i, j :: 0 <= i < j < |call.ids| ==> call.ids[i] != call.ids[j]
  {
    var call := AddCall(seq(|chunks|, i requires 0 <= i => ChunkId(filename, i)), chunks,
                        seq(|chunks|, _ => Metadata(filename)));
    assert forall i, j :: 0 <= i < j < |call.ids| ==> call.ids[i] != call.ids[j] by {
      forall i, j | 0 <= i < j < |call.ids|
        ensures call.ids[i] != call.ids[j]
      {
        if call.ids[i] == call.ids[j] {
          ChunkIdInjective(filename, i, filename, j);
        }
      }
    }
    call
  }

  /** `upload_file` from the extension check on. */
  function UploadFile(filename: string, view: FileView): (r: UploadResult)
    ensures r.added.Some? <==> r.response.Ok?
    ensures r.response.Ok? ==> r.response.filename == filename
    ensures match ReadDocument(filename, view)
            case None => r == UploadResult(Error(UnsupportedMessage), None)
            case Some(Failure(e)) => r == UploadResult(Error(e), None)
            case Some(Success(content)) =>
              if AllSpace(content) then r == UploadResult(Warning(EmptyMessage), None)
              else r.response.Ok? && IsFileBatch(r.added.value, filename, ChunkText(content))
  {
    match ReadDocument(filename, view)
    case None => UploadResult(Error(UnsupportedMessage), None)
    case Some(Failure(e)) => UploadResult(Error(e), None)
    case Some(Success(content)) =>
      var chunks := ChunkText(content);
      if chunks != [] then UploadResult(Ok(filename), Some(FileBatch(filename, chunks)))
      else UploadResult(Warning(EmptyMessage), None)
  }
}

=== FILE: vectorstore.dfy ===
/** The Chroma collection as the core sees it: it only ever sends `add`
    calls with three parallel lists, and reads back query results. The
    store's own behaviour (embedding, ranking, persistence) is outside
    the model, so the store is represented by the calls made to it. */
module VectorStore {

  /** The metadata dictionary `{"source": filename}` stored with each chunk. */
  datatype Metadata = Metadata(source: string)

  /** One `collection.add(ids=..., documents=..., metadatas=...)` call. */
  datatype AddCall = AddCall(ids: seq<string>, documents: seq<string>, metadatas: seq<Metadata>)

  /** The three lists of an add call line up index by index. */
  predicate Aligned(call: AddCall)
  {
    |call.ids| == |call.documents| == |call.metadatas|
  }

  /** One row of a query result: a stored chunk and its metadata source. */
  datatype Hit = Hit(document: string, source: string)
}

=== FILE: wrappers.dfy ===
/** Failure-carrying values used wherever the source raises, returns an
    error status or may have nothing to return. */
module Wrappers {

  /** A value that may be absent. */
  datatype Option<+T> = None | Some(value: T)

  /** Either a computed value or the message of the exception that replaced it. */
  datatype Result<+R, +E> = Success(value: R) | Failure(error: E)
}
